=== FILE: README.md ===
# Fire-alarm escalation over Feishu, modelled in Dafny

A fire detector raises an alarm. Two escalation flows turn that alarm into messages to a
laboratory's administrators on the Feishu chat platform:

- **Per-administrator flow** (`Main.run_fire_alarm_process_feishu`):
  1. Broadcast an SMS-tier alarm card, with the picture, to every administrator.
  2. Look up one private chat per administrator. Give up if none resolves.
  3. Poll those chats for a reply, for at most 36 rounds (180 seconds, one round every 5 seconds).
  4. Broadcast either an app-tier stand-down or a phone-tier escalation.
- **Group flow** (`Communication.run_fire_alarm_process_feishu`):
  1. Post one alarm card to the group. Give up if no message id comes back.
  2. Buzz the administrators on that message at SMS tier.
  3. Poll the group for at most 36 rounds.
  4. After a timeout, buzz the same message again at phone tier.

Both flows use the `FeishuNotifier`. The model covers its pure parts:

- mobile-number normalisation;
- loading the administrator list from the `.env` entries;
- assembling the alert card;
- the buzz ("urgent") request and its success rule;
- the fan-out `send_to_all_admins`, with a buzz after each delivered card.

The modules:

- `Common`: `Option`, `Truthy` (Python truthiness of an optional string), the three buzz tiers and their wire names.
- `Feishu`: the notifier. Every HTTP round trip is an argument:
  - `directory` answers the open-id look-up;
  - a `SendOracle` answers one broadcast, with the rendered send time, the upload's image key and one reply per recipient.
- `Trace`: a run is the ordered list of calls a flow makes to the notifier (`Call`), plus how it ended (`Aborted`, `Confirmed`, `TimedOut`).
- `Polling`: the bounded poll both flows share.
  - `Poll` is the reference, built check by check.
  - `PollLoop` is the nested loop as the source writes it, proved to make exactly the same calls.
- `AdminAlarm`: the per-administrator flow. Its gateway is:
  - the chat look-up result of each administrator;
  - `answers(k)`, the answer to the k-th reply check.
- `GroupAlarm`: the group flow. Its gateway is:
  - the message id of the group post;
  - `answers(k)`.

Two facts about the code shape the model:

- The per-administrator flow does not look at the result of the initial broadcast. A failed alarm does not stop it.
  - The model's gateway for that flow does not contain the broadcast results at all, so no run can depend on them.
  - Only a missing chat for every administrator ends the run early.
- An empty administrator list does not stop either flow early.
  - The per-administrator flow still calls `send_to_all_admins`, which reports failure without sending.
  - It then finds no chat and gives up: `NoAdministrators`.
  - The group flow still posts the group card. It skips both buzzes when there are no administrators.

`Alarm`, `Closing` and `GroupCard` only name the fixed calls the flows make. What they carry is stated by the
`AdminAlarm.RunFireAlarm`, `AdminAlarm.BroadcastsOfRun` and `GroupAlarm.RunGroupAlarm` rows below.

## Model

| member | source | states |
|---|---|---|
| Feishu.NormalizeMobile | core/communication/feishu.py:66-67 | the normalised number always starts with "+" and ends with the given number, at most one character longer |
| Feishu.NormalizeMobileCases | core/communication/feishu.py:66-67 | a number with "+" is unchanged; any other gets exactly one "+" in front, and dropping it gives the number back |
| Feishu.NormalizeMobileIdempotent | core/communication/feishu.py:66-67 | normalising twice is normalising once |
| Feishu.OpenIdByMobile | core/communication/feishu.py:64-91 | the look-up asks the contact service about the normalised number; an empty or missing user id is no id |
| Feishu.EntryId | core/communication/feishu.py:108-116 | an entry yields an id exactly when its key starts with "admin_phone", its value is non-empty and the directory knows the normalised number under a non-empty id; that id is then the directory's answer |
| Feishu.LoadEntriesAppends | core/communication/feishu.py:107-118 | the loading loop only appends: the old list stays a prefix, `count` equals the number of appended ids, and no id is ever added twice |
| Feishu.LoadEntriesMembers | core/communication/feishu.py:108-118 | after loading, the list holds exactly the old ids and every id some admin entry resolved to |
| Feishu.LoadEntriesFirstOccurrenceOrder | core/communication/feishu.py:108-118 | ids are kept in order of first occurrence: an id earlier in the list was resolved by an entry before every entry resolving a later id |
| Feishu.FailedEntrySkipped | core/communication/feishu.py:113-121 | an entry that is not an admin entry, or whose look-up fails, changes nothing and does not stop the later entries |
| Feishu.LoadEntriesLooksUpOnlyAdminEntries | core/communication/feishu.py:108-113 | only keys starting with "admin_phone" that have a non-empty value are looked up: directories that agree on those numbers load the same list |
| Feishu.AutoLoadAdmins | core/communication/feishu.py:93-123 | loading from the empty list gives a duplicate-free list, with `count` equal to its length, of exactly the resolved ids |
| Feishu.NotifierAdmins | core/communication/feishu.py:40-44 | the administrator list is empty unless both app credentials are set and the .env file exists; otherwise it is the loaded list |
| Feishu.FinalTitle | core/communication/feishu.py:216 | the title is tagged "【keyword】" exactly when the keyword is non-empty, directly followed by the given title: nothing else is in between (the length is the title's plus the tag's) |
| Feishu.DetailText | core/communication/feishu.py:217 | the detail block is the "**时间**: " line with the send time, then "**详情**: " and the message content, and nothing else (its length is the sum of those parts) |
| Feishu.AlertCard | core/communication/feishu.py:215-228 | the header carries the flame prefix and the final title; the elements are the detail block, the picture exactly when an image key is present, a rule and the footer note (3 or 4 elements); a picture can only be the second element |
| Feishu.BuzzUrl | core/communication/feishu.py:152 | the buzz endpoint is the message's resource followed by "urgent_" and the tier's name, and nothing else: its length is exactly the sum of those parts |
| Feishu.BuzzUrlDeterminesTier | core/communication/feishu.py:152 | two buzzes on one message with the same endpoint have the same tier |
| Common.ParseTierName | core/communication/feishu.py:157-160 | each tier's wire name reads back as that tier |
| Feishu.BuzzMessage | core/communication/feishu.py:143-187 | the request goes to the buzz endpoint of the call's message and tier, carries the given users and the tier's name (which reads back as that tier), and the buzz succeeds exactly when the response has code 0 |
| Feishu.SendSingleCard | core/communication/feishu.py:238-251 | after a delivery, and only then, the receiver alone is buzzed on the delivered message at the broadcast's tier |
| Feishu.SendEach | core/communication/feishu.py:203-206 | one attempt per administrator, in list order, all with the same card, each buzzed exactly when its send was delivered |
| Feishu.Successes | core/communication/feishu.py:200-206 | the success count never exceeds the number of attempts, and equals it exactly when every attempt was delivered |
| Feishu.SuccessesPositive | core/communication/feishu.py:200-209 | the success count is positive exactly when some attempt was delivered |
| Feishu.SendToAllAdmins | core/communication/feishu.py:189-209 | without administrators: failure and no upload or send; otherwise one upload when a picture is given, one attempt per administrator in order, every attempt with the same alert card built from the title, content, keyword and send time, carrying the upload's key only when a picture was given (a text-only card when no key came back), and success exactly when some send was delivered |
| Polling.PollRound | main.py:57-61 | one round checks the probes in order and stops at the first positive answer; every earlier check in the round was negative |
| Polling.Poll | main.py:56-66 | the reference poll confirms exactly when one of the checks within the budget of rounds times probes is answered positively |
| Polling.PollLoop | main.py:51-66 | the nested polling loop makes exactly the calls of the check-by-check reference poll and reports its outcome |
| Polling.PollChecks | main.py:56-61 | at most `rounds * n` checks go out, check k uses probe k mod n, all but the last were answered negatively, the last decides the outcome, and only probes and pauses are issued |
| Polling.PollConfirmedEnding | main.py:63-66 | a confirmed poll has one pause per completed round and ends on its confirming check |
| Polling.PollTimedOutEnding | main.py:56-66 | a poll that timed out made every check and paused after every one of the rounds, ending with a pause |
| Polling.PollFacts | main.py:51-66 | all of the poll's promises together, with the confirmation rule read off the number of checks made |
| AdminAlarm.ChatIds | main.py:39-43 | the chat list keeps only resolved, non-empty chat ids, and it is empty exactly when no administrator's chat resolved |
| AdminAlarm.ChatIdsPosition | main.py:39-43 | an administrator's resolved chat sits in the list right after the chats of the administrators before them |
| AdminAlarm.ChatIdsFromAdmins | main.py:39-43 | every chat in the list is the non-empty chat of some administrator, placed right after the chats of the administrators before that one |
| AdminAlarm.TwoChats | main.py:39-43 | two resolved chats are kept in administrator order |
| AdminAlarm.RunFireAlarm | main.py:15-84 | the alarm goes out first, then one look-up per administrator; the run gives up exactly when no chat resolved, and otherwise polls and ends with exactly one closing broadcast that depends on the poll's outcome |
| AdminAlarm.PollOverChats | main.py:51-66 | every poll call is a pause or a check on a resolved chat since the start moment; check k goes to chat k mod n; the poll stops at the first positive answer, confirms exactly when some check within 36 rounds is positive, and pauses once per unanswered round |
| AdminAlarm.PollingPhase | main.py:49-66 | the same promises read off the calls of a whole run between the look-ups and the closing broadcast |
| AdminAlarm.BroadcastsOfRun | main.py:30-84 | only the first and last calls of a run are broadcasts: the SMS-tier alarm with the picture, then either the app-tier stand-down without picture after a confirmation or the phone-tier escalation with the picture after a timeout |
| AdminAlarm.NoAdministrators | main.py:39-47 | without administrators the run stops right after the alarm broadcast |
| AdminAlarm.NobodyReplies | main.py:51-84 | one administrator who never replies: 36 checks, 36 pauses, then the phone-tier escalation |
| AdminAlarm.SilentPoll | main.py:56-66 | the poll of that scenario times out after 36 checks and 36 pauses |
| AdminAlarm.ThirdCheckConfirms | main.py:56-72 | two administrators, third check positive: the checks go to chat 1, chat 2, chat 1, there is one pause, and the run ends with the stand-down |
| AdminAlarm.ThirdCheckPoll | main.py:56-66 | the poll of that scenario confirms after those three checks and one pause |
| AdminAlarm.ThirdCheckSchedule | main.py:56-66 | with two probes and only the third check positive, the poll is probe 1, probe 2, a pause, probe 1 again, and it confirms |
| GroupAlarm.BuzzAdmins | core/communication/communication.py:31-35 | the administrators are buzzed exactly when there are any, once, on the given message at the given tier |
| GroupAlarm.GroupPoll | core/communication/communication.py:42-46 | the group poll confirms exactly when one of the first 36 group checks is positive |
| GroupAlarm.RunGroupAlarm | core/communication/communication.py:13-59 | the group card goes out first; the run gives up right after it exactly when no message id came back; otherwise, with administrators, the second call is the SMS buzz on that message; the calls after the card and the SMS buzz and before any phone buzz are exactly the group poll, so nothing else is posted; the run confirms exactly when one of the first 36 checks is positive and then ends on that check; a timeout ends with a pause, followed by the phone buzz on the same message when there are administrators |
| GroupAlarm.GroupPostsOnce | core/communication/communication.py:19-59 | the group card is posted once, as the first call; every later call is a buzz, a check of the group since the start moment, or a pause |
| GroupAlarm.GroupPollFacts | core/communication/communication.py:38-46 | every poll call is a pause or a group check since the start moment; at most 36 checks; the poll stops at the first positive answer and confirms exactly when one of the first 36 is positive; a timeout pauses 36 times and ends with a pause |
| GroupAlarm.GroupPollEnds | core/communication/communication.py:42-46 | the group poll always makes a call; a confirmed poll ends on a group check, one that timed out on a pause |
| GroupAlarm.GroupPollHasNoBuzz | core/communication/communication.py:42-46 | polling raises no buzz |
| GroupAlarm.EscalationTiers | core/communication/communication.py:29-59 | a card, an SMS buzz, a buzz-free poll and an optional phone buzz buzz with SMS then phone, or SMS alone, or not at all without administrators |
| GroupAlarm.GroupBuzzTiers | core/communication/communication.py:29-59 | the tiers a run buzzes with are none, [SMS] after a confirmation or [SMS, phone] after a timeout: never downwards, phone at most once |
| GroupAlarm.GroupBuzzTiersRise | core/communication/communication.py:29-59 | each buzz of a run is of a strictly higher tier than every earlier buzz |
| GroupAlarm.GroupBuzzTargets | core/communication/communication.py:31-59 | every buzz of a run is on the posted message and goes to all the administrators |
| GroupAlarm.RunFramesPoll | core/communication/communication.py:29-59 | the checks and pauses of a run that got a message id are exactly those of its poll |
| GroupAlarm.ConfirmedRunEndsPoll | core/communication/communication.py:48-52 | a confirmed run makes no call after its poll |
| GroupAlarm.GroupPollingPhase | core/communication/communication.py:37-52 | read off a whole run: every check is about the group since the start moment, at most 36 checks, confirmation exactly when one of the first 36 checks is positive, and then the confirming check is the run's last call |
| GroupAlarm.NoMessageNoEscalation | core/communication/communication.py:19-27 | a failed group post ends the run at once, with no buzz and no check |
| GroupAlarm.FirstCheckConfirms | core/communication/communication.py:29-52 | the group answers the first check: the card, the SMS buzz and one check, and nothing else |
| GroupAlarm.FirstCheckPoll | core/communication/communication.py:42-45 | when the group answers the first check, the poll confirms after that single check |

## Left out

- HTTP, token acquisition, JSON bodies and response parsing are left out. Each becomes an oracle argument (`directory`, `SendOracle`, `BuzzResponse`, the flows' `Gateway`) because they are network calls.
- Reading `.env` and the process environment is left out. The entries are the pairs `dotenv_values` returns, in its order: each key once, at its first position, with its last value and with `${VAR}` references already expanded; `NotifierAdmins` receives whether both credentials are set and whether the file exists.
- `upload_image` is left out. It is an oracle image key, because it reads a file and calls the network.
- `time.time`, `time.sleep` and `time.strftime` are left out:
  - the start moment is an opaque number read once per run;
  - a pause is a `Sleep` call in the trace;
  - the card's rendered time is an opaque string per broadcast.
- The methods the flows call but the notifier does not define are uninterpreted: `get_p2p_chat_id`, `check_user_reply`, `send_card_to_group`, `check_chat_reply`.
  - They appear as gateway answers, which are assumed never to raise.
  - In the source none of these calls is guarded by a `try`. The model has no run that ends by such a raise.
  - In the per-administrator flow, a raise from `get_p2p_chat_id` or `check_user_reply` ends the run after the alarm broadcast, with no stand-down and no escalation.
  - In the group flow, a raise from `send_card_to_group` ends the run at the card post, before any buzz. A raise from `check_chat_reply` ends it after the SMS buzz, with no phone buzz.
- Feishu.LoadEntries: every look-up of the same normalised number gets the same answer (`directory` is a function of the number). The source sends a fresh token request and a fresh look-up per entry, so a number listed twice could fail once and then succeed. The model does not cover that.
- Threading, logging, the group-id listing script and the test file are left out. They hold no decision logic.
- The flows' traces record the arguments of each broadcast and buzz, not its result, because neither flow looks at those results. What one broadcast does per recipient is modelled separately by `Feishu.SendToAllAdmins`.
- Feishu.SendToAllAdmins: every card of one broadcast carries the same rendered time, because the time is read once per broadcast here rather than once per card.
- Feishu.SendSingleCard: the missing token and a rejected send are one case (`NotSent`), because both return False before any buzz.
- `str(image_path)` in the per-administrator flow is not modelled: the picture's path is already a string.

=== FILE: admin_alarm.dfy ===
/**
 * The per-administrator escalation flow of the program entry point
 * (`Main.run_fire_alarm_process_feishu`): broadcast an SMS-tier alarm to every
 * administrator, open one private chat per administrator, poll those chats for
 * a reply, then broadcast either an app-tier stand-down or a phone-tier
 * escalation.
 */
module AdminAlarm {
  import opened Common
  import opened Trace
  import Feishu
  import Polling

  const AlarmTitle: string := "实验室火灾警报"
  const AlarmContent: string := "检测到明火！请在 3 分钟内回复【1】确认，否则将触发电话报警。"
  const StandDownTitle: string := "警报解除"
  const StandDownContent: string := "管理员已响应，流程结束。"
  const EscalationTitle: string := "【紧急】火灾未响应"
  const EscalationContent: string := "您未在规定时间内回复，系统发起自动电话通知！请立即处置！"

  /**
   * The notifier's answers during one run that the flow looks at: the chat
   * look-up of each administrator (`get_p2p_chat_id`) and the k-th reply check
   * (`check_user_reply`). The broadcasts' own results are discarded by the
   * flow, so they are not part of its inputs.
   */
  datatype Gateway = Gateway(chats: seq<Option<Id>>, answers: nat -> bool)

  /** The chat ids that resolved to a non-empty id, in administrator order. */
  function ChatIds(chats: seq<Option<Id>>): (r: seq<Id>)
    ensures |r| <= |chats|
    ensures forall k :: 0 <= k < |r| ==> r[k] != ""
    ensures r == [] <==> forall i :: 0 <= i < |chats| ==> !Truthy(chats[i])
    decreases |chats|
  {
    if chats == [] then []
    else ChatIds(chats[..|chats| - 1]) + (if Truthy(chats[|chats| - 1]) then [chats[|chats| - 1].value] else [])
  }

  /**
   * Administrator `i`'s chat, when it resolved, sits in the chat list right
   * after the chats of the administrators before `i`.
   */
  lemma {:induction false} ChatIdsPosition(chats: seq<Option<Id>>, i: nat)
    requires i < |chats| && Truthy(chats[i])
    ensures |ChatIds(chats[..i])| < |ChatIds(chats)|
    ensures ChatIds(chats)[|ChatIds(chats[..i])|] == chats[i].value
    decreases |chats|
  {
    var init := chats[..|chats| - 1];
    assert ChatIds(chats) == ChatIds(init) + (if Truthy(chats[|chats| - 1]) then [chats[|chats| - 1].value] else []);
    if i < |init| {
      ChatIdsPosition(init, i);
      assert chats[..i] == init[..i];
    } else {
      assert chats[..i] == init;
    }
  }

  /**
   * Every chat in the list is the one some administrator resolved to, and it
   * sits right after the chats of the administrators before that one.
   */
  lemma {:induction false} ChatIdsFromAdmins(chats: seq<Option<Id>>, k: nat)
    requires k < |ChatIds(chats)|
    ensures exists i ::
      && 0 <= i < |chats|
      && Truthy(chats[i])
      && k == |ChatIds(chats[..i])|
      && ChatIds(chats)[k] == chats[i].value
    decreases |chats|
  {
    var init := chats[..|chats| - 1];
    var last := chats[|chats| - 1];
    var r := ChatIds(chats);
    assert r == ChatIds(init) + (if Truthy(last) then [last.value] else []);
    if k < |ChatIds(init)| {
      ChatIdsFromAdmins(init, k);
      var i :| 0 <= i < |init| && Truthy(init[i]) && k == |ChatIds(init[..i])| && ChatIds(init)[k] == init[i].value;
      assert chats[..i] == init[..i];
      assert r[k] == ChatIds(init)[k];
      assert Truthy(chats[i]) && k == |ChatIds(chats[..i])| && r[k] == chats[i].value;
    } else {
      var i := |chats| - 1;
      assert chats[..i] == init;
      assert Truthy(chats[i]) && k == |ChatIds(chats[..i])| && r[k] == chats[i].value;
    }
  }

  /** One chat look-up per administrator, in list order. */
  function Resolutions(admins: seq<Id>): seq<Call>
  {
    seq(|admins|, i requires 0 <= i < |admins| => ResolveChat(admins[i]))
  }

  /** One reply check per chat, all asking about replies since the same moment. */
  function UserProbes(chats: seq<Id>, since: Timestamp): seq<Call>
  {
    seq(|chats|, k requires 0 <= k < |chats| => CheckUser(chats[k], since))
  }

  /** Every probe is a reply check on one of the chats since `since`. */
  lemma UserProbesAsk(chats: seq<Id>, since: Timestamp)
    ensures forall x :: x in UserProbes(chats, since) ==> x.CheckUser? && x.since == since && x.chat in chats
  {
    var probes := UserProbes(chats, since);
    forall x | x in probes
      ensures x.CheckUser? && x.since == since && x.chat in chats
    {
      var k :| 0 <= k < |probes| && probes[k] == x;
    }
  }

  /** The SMS-tier alarm broadcast, with the picture, that opens every run. */
  function Alarm(imagePath: string): Call
  {
    SendToAll(Sms, AlarmTitle, AlarmContent, Some(imagePath))
  }

  /**
   * The broadcast that closes a run that got as far as polling: the app-tier
   * stand-down without picture after a confirmation, else the phone-tier
   * escalation with the picture.
   */
  function Closing(imagePath: string, confirmed: bool): Call
  {
    if confirmed then SendToAll(App, StandDownTitle, StandDownContent, None)
    else SendToAll(Phone, EscalationTitle, EscalationContent, Some(imagePath))
  }

  /** The poll over the resolved chats, every check asking about replies since `since`. */
  function AdminPoll(since: Timestamp, g: Gateway): Polling.Polled
    requires ChatIds(g.chats) != []
  {
    Polling.Poll(UserProbes(ChatIds(g.chats), since), g.answers, Polling.Rounds)
  }

  /** The calls a run makes between the chat look-ups and the closing broadcast. */
  function PollPart(r: Run, admins: seq<Id>): seq<Call>
    requires |r.trace| >= 2 + |admins|
  {
    r.trace[1 + |admins|..|r.trace| - 1]
  }

  /**
   * One run of the flow for the notifier's `admins`; `since` is the moment
   * read before the alarm went out and `imagePath` the picture's path as a
   * string. The alarm goes out first, then one chat look-up per administrator;
   * without any chat the run gives up; else the poll runs and exactly one
   * closing broadcast ends the run.
   */
  function RunFireAlarm(admins: seq<Id>, imagePath: string, since: Timestamp, g: Gateway): (r: Run)
    requires |g.chats| == |admins|
    ensures |r.trace| >= 1 + |admins|
    ensures r.trace[0] == Alarm(imagePath)
    ensures forall i :: 0 <= i < |admins| ==> r.trace[1 + i] == ResolveChat(admins[i])
    ensures r.outcome == Aborted <==> ChatIds(g.chats) == []
    ensures r.outcome == Aborted ==> |r.trace| == 1 + |admins|
    ensures r.outcome != Aborted ==>
      && |r.trace| == 2 + |admins| + |AdminPoll(since, g).trace|
      && PollPart(r, admins) == AdminPoll(since, g).trace
      && (r.outcome == Confirmed <==> AdminPoll(since, g).confirmed)
      && r.trace[|r.trace| - 1] == Closing(imagePath, r.outcome == Confirmed)
  {
    var head := [Alarm(imagePath)] + Resolutions(admins);
    assert head[1..] == Resolutions(admins);
    if ChatIds(g.chats) == [] then Run(head, Aborted)
    else
      var polled := AdminPoll(since, g);
      var t := head + polled.trace + [Closing(imagePath, polled.confirmed)];
      SliceParts(head, polled.trace, [Closing(imagePath, polled.confirmed)]);
      Run(t, if polled.confirmed then Confirmed else TimedOut)
  }

  /**
   * The poll over the resolved chats: every call is a pause or a check on one
   * of those chats since `since`, at most 36 rounds of checks go out, the k-th
   * check goes to chat `k mod n`, it stops at the first positive answer, it
   * confirms exactly when some check within the budget is positive, and it
   * pauses once per unanswered round.
   */
  lemma PollOverChats(since: Timestamp, g: Gateway)
    requires ChatIds(g.chats) != []
    ensures var chats := ChatIds(g.chats);
      var n := |chats|;
      var p := AdminPoll(since, g);
      var c := |Checks(p.trace)|;
      && (forall x :: x in p.trace ==> x == Sleep || (x.CheckUser? && x.since == since && x.chat in chats))
      && c <= Polling.Rounds * n
      && (forall k :: 0 <= k < c ==> Checks(p.trace)[k] == CheckUser(chats[k % n], since))
      && (forall k :: 0 <= k < c - 1 ==> !g.answers(k))
      && (p.confirmed <==> exists k :: 0 <= k < Polling.Rounds * n && g.answers(k))
      && (p.confirmed <==> c > 0 && g.answers(c - 1))
      && (p.confirmed ==> Sleeps(p.trace) == (c - 1) / n)
      && (!p.confirmed ==> c == Polling.Rounds * n && Sleeps(p.trace) == Polling.Rounds)
  {
    var chats := ChatIds(g.chats);
    var probes := UserProbes(chats, since);
    Polling.PollFacts(probes, g.answers, Polling.Rounds);
    UserProbesAsk(chats, since);
  }

  /**
   * The polling phase of a run that found at least one chat, read off the
   * run itself: every check asks about the same start moment on one of the
   * resolved chats, at most 36 rounds are spent, the run confirms exactly when
   * some check within them is positive and it stops at the first positive
   * one, and a pause follows every unanswered round and no confirmed one.
   */
  lemma PollingPhase(admins: seq<Id>, imagePath: string, since: Timestamp, g: Gateway)
    requires |g.chats| == |admins|
    requires ChatIds(g.chats) != []
    ensures var r := RunFireAlarm(admins, imagePath, since, g);
      var chats := ChatIds(g.chats);
      var n := |chats|;
      var t := PollPart(r, admins);
      var c := |Checks(t)|;
      && |r.trace| >= 2 + |admins|
      && (forall x :: x in t ==> x == Sleep || (x.CheckUser? && x.since == since && x.chat in chats))
      && c <= Polling.Rounds * n
      && (forall k :: 0 <= k < c ==> Checks(t)[k] == CheckUser(chats[k % n], since))
      && (forall k :: 0 <= k < c - 1 ==> !g.answers(k))
      && (r.outcome == Confirmed <==> exists k :: 0 <= k < Polling.Rounds * n && g.answers(k))
      && (r.outcome == Confirmed <==> c > 0 && g.answers(c - 1))
      && (r.outcome == Confirmed ==> Sleeps(t) == (c - 1) / n)
      && (r.outcome == TimedOut ==> c == Polling.Rounds * n && Sleeps(t) == Polling.Rounds)
  {
    PollOverChats(since, g);
  }

  /**
   * Only the first and the last call of a run that reached polling are
   * broadcasts: the SMS-tier alarm with the picture, then exactly one of the
   * stand-down (app tier, without picture) when someone confirmed and the
   * escalation (phone tier, with the picture) when nobody did. A run that gave
   * up broadcasts only the alarm.
   */
  lemma BroadcastsOfRun(admins: seq<Id>, imagePath: string, since: Timestamp, g: Gateway)
    requires |g.chats| == |admins|
    ensures var r := RunFireAlarm(admins, imagePath, since, g);
      var last := r.trace[|r.trace| - 1];
      && r.trace[0] == SendToAll(Sms, AlarmTitle, AlarmContent, Some(imagePath))
      && (r.outcome == Aborted ==> forall k :: 1 <= k < |r.trace| ==> !r.trace[k].SendToAll?)
      && (r.outcome != Aborted ==> forall k :: 1 <= k < |r.trace| - 1 ==> !r.trace[k].SendToAll?)
      && (r.outcome == Confirmed ==> last == SendToAll(App, StandDownTitle, StandDownContent, None))
      && (r.outcome == TimedOut ==> last == SendToAll(Phone, EscalationTitle, EscalationContent, Some(imagePath)))
  {
    var r := RunFireAlarm(admins, imagePath, since, g);
    forall k | 1 <= k < 1 + |admins|
      ensures !r.trace[k].SendToAll?
    {
      assert r.trace[k] == ResolveChat(admins[k - 1]);
    }
    if ChatIds(g.chats) != [] {
      var p := AdminPoll(since, g);
      PollOverChats(since, g);
      forall k | 1 + |admins| <= k < |r.trace| - 1
        ensures !r.trace[k].SendToAll?
      {
        var x := p.trace[k - 1 - |admins|];
        assert r.trace[k] == x;
        assert x in p.trace;
      }
    }
  }

  /** With no administrators the run aborts right after the alarm broadcast. */
  lemma NoAdministrators(imagePath: string, since: Timestamp, g: Gateway)
    requires g.chats == []
    ensures var r := RunFireAlarm([], imagePath, since, g);
      r.outcome == Aborted && r.trace == [Alarm(imagePath)]
  {
  }

  /**
   * One administrator whose chat resolves and who never replies: 36 reply
   * checks, a pause after each, then the phone-tier escalation.
   */
  lemma NobodyReplies(admin: Id, chat: Id, imagePath: string, since: Timestamp, answers: nat -> bool)
    requires chat != ""
    requires forall k :: !answers(k)
    ensures var g := Gateway([Some(chat)], answers);
      var r := RunFireAlarm([admin], imagePath, since, g);
      && r.outcome == TimedOut
      && |Checks(PollPart(r, [admin]))| == 36
      && Sleeps(PollPart(r, [admin])) == 36
      && r.trace[|r.trace| - 1] == Closing(imagePath, false)
  {
    SilentPoll(chat, since, answers);
  }

  /** The poll of the scenario above, on its own. */
  lemma SilentPoll(chat: Id, since: Timestamp, answers: nat -> bool)
    requires chat != ""
    requires forall k :: !answers(k)
    ensures ChatIds([Some(chat)]) == [chat]
    ensures var p := AdminPoll(since, Gateway([Some(chat)], answers));
      !p.confirmed && |Checks(p.trace)| == 36 && Sleeps(p.trace) == 36
  {
    var g := Gateway([Some(chat)], answers);
    assert ChatIds(g.chats) == [chat] by {
      assert g.chats[..0] == [];
    }
    PollOverChats(since, g);
    assert Polling.Rounds * |ChatIds(g.chats)| == 36;
  }

  /** Two resolved chats are kept in order. */
  lemma TwoChats(c1: Id, c2: Id)
    requires c1 != "" && c2 != ""
    ensures ChatIds([Some(c1), Some(c2)]) == [c1, c2]
  {
    var chats := [Some(c1), Some(c2)];
    assert chats[..1] == [Some(c1)];
    assert chats[..1][..0] == [];
    assert ChatIds(chats[..1]) == [c1];
  }

  /**
   * Two administrators whose chats resolve; the third check (the first chat
   * in the second round) is positive: three checks, one pause, and the
   * app-tier stand-down.
   */
  lemma ThirdCheckConfirms(a1: Id, a2: Id, c1: Id, c2: Id, imagePath: string, since: Timestamp, answers: nat -> bool)
    requires c1 != "" && c2 != ""
    requires forall k :: answers(k) <==> k == 2
    ensures var g := Gateway([Some(c1), Some(c2)], answers);
      var r := RunFireAlarm([a1, a2], imagePath, since, g);
      && r.outcome == Confirmed
      && Checks(PollPart(r, [a1, a2])) == [CheckUser(c1, since), CheckUser(c2, since), CheckUser(c1, since)]
      && Sleeps(PollPart(r, [a1, a2])) == 1
      && r.trace[|r.trace| - 1] == Closing(imagePath, true)
  {
    ThirdCheckPoll(c1, c2, since, answers);
  }

  /** The poll of the scenario above, on its own. */
  lemma ThirdCheckPoll(c1: Id, c2: Id, since: Timestamp, answers: nat -> bool)
    requires c1 != "" && c2 != ""
    requires forall k :: answers(k) <==> k == 2
    ensures ChatIds([Some(c1), Some(c2)]) != []
    ensures var p := AdminPoll(since, Gateway([Some(c1), Some(c2)], answers));
      && p.confirmed
      && Checks(p.trace) == [CheckUser(c1, since), CheckUser(c2, since), CheckUser(c1, since)]
      && Sleeps(p.trace) == 1
  {
    var g := Gateway([Some(c1), Some(c2)], answers);
    TwoChats(c1, c2);
    var u1, u2 := CheckUser(c1, since), CheckUser(c2, since);
    assert UserProbes(ChatIds(g.chats), since) == [u1, u2];
    ThirdCheckSchedule(u1, u2, answers);
    var t := [u1, u2, Sleep, u1];
    assert t == [u1] + [u2] + [Sleep] + [u1];
    ChecksConcat([u1] + [u2] + [Sleep], [u1]);
    ChecksConcat([u1] + [u2], [Sleep]);
    ChecksConcat([u1], [u2]);
    SleepsConcat([u1] + [u2] + [Sleep], [u1]);
    SleepsConcat([u1] + [u2], [Sleep]);
    SleepsConcat([u1], [u2]);
  }

  /** Two probes, only the third check positive: probe 1, probe 2, a pause, probe 1 again. */
  lemma ThirdCheckSchedule(u1: Call, u2: Call, answers: nat -> bool)
    requires forall k :: answers(k) <==> k == 2
    ensures Polling.Poll([u1, u2], answers, Polling.Rounds) == Polling.Polled(true, [u1, u2, Sleep, u1])
  {
    var probes := [u1, u2];
    var budget := Polling.Rounds * |probes|;
    assert Polling.FirstPositive(answers, 1, budget) == 2;
    assert Polling.ChecksMade(answers, budget) == 3;
    assert Polling.Schedule(probes, answers, 1) == [u1];
    assert Polling.Schedule(probes, answers, 2) == [u1, u2, Sleep];
  }
}

=== FILE: common.dfy ===
/** Small vocabulary shared by the notifier model and both escalation flows. */
module Common {

  /** An optional value: what a gateway look-up returns when it may find nothing. */
  datatype Option<+T> = None | Some(value: T)

  /** Identifiers handed out by the chat platform: open ids, chat ids, message ids, image keys. */
  type Id = string

  /** Python truthiness of a value that is either None or a string: present and non-empty. */
  predicate Truthy(o: Option<string>)
  {
    o.Some? && o.value != ""
  }

  /** Python's `str.startswith`. */
  predicate StartsWith(s: string, prefix: string)
  {
    |prefix| <= |s| && s[..|prefix|] == prefix
  }

  /** Python's `str.endswith`. */
  predicate EndsWith(s: string, suffix: string)
  {
    |suffix| <= |s| && s[|s| - |suffix|..] == suffix
  }

  /** No identifier occurs twice. */
  predicate NoDuplicates<T(==)>(s: seq<T>)
  {
    forall i, j :: 0 <= i < j < |s| ==> s[i] != s[j]
  }

  /**
   * The urgency tier of a buzz ("urgent" request) on a sent message:
   * in-app pop-up only, in-app plus SMS, in-app plus SMS plus a phone call.
   */
  datatype Tier = App | Sms | Phone

  /** The `urgent_type` string the platform expects for a tier. */
  function TierName(t: Tier): string
  {
    match t
    case App => "app"
    case Sms => "sms"
    case Phone => "phone"
  }

  /** Reads an `urgent_type` string back; anything but the three known names is rejected. */
  function ParseTier(s: string): (r: Option<Tier>)
    ensures r.Some? ==> TierName(r.value) == s
  {
    if s == "app" then Some(App)
    else if s == "sms" then Some(Sms)
    else if s == "phone" then Some(Phone)
    else None
  }

  /** Every tier's name reads back as that tier, so the name identifies the tier. */
  lemma ParseTierName(t: Tier)
    ensures ParseTier(TierName(t)) == Some(t)
  {
  }

  /** Escalation order of the tiers. */
  function Rank(t: Tier): nat
  {
    match t
    case App => 0
    case Sms => 1
    case Phone => 2
  }

  /** The pieces of a three-part concatenation can be sliced back out. */
  lemma SliceParts<T>(head: seq<T>, mid: seq<T>, last: seq<T>)
    ensures (head + mid + last)[..|head|] == head
    ensures (head + mid + last)[|head|..|head| + |mid|] == mid
    ensures (head + mid + last)[|head| + |mid|..] == last
  {
  }
}

=== FILE: feishu.dfy ===
/**
 * The decision logic of the Feishu notifier: mobile-number normalisation,
 * loading the administrator directory from the .env entries, assembling the
 * alert card, the buzz request, and the fan-out send to every administrator.
 * Every HTTP round trip is an oracle argument: `directory` answers the
 * open-id look-up, a `SendOracle` answers one broadcast.
 */
module Feishu {
  import opened Common

  // ---------------------------------------------------------------------------
  // get_open_id_by_mobile
  // ---------------------------------------------------------------------------

  /** The mobile number in international form: a leading "+" is added when missing. */
  function NormalizeMobile(mobile: string): (r: string)
    ensures StartsWith(r, "+")
    ensures EndsWith(r, mobile) && |r| <= |mobile| + 1
  {
    if StartsWith(mobile, "+") then mobile else "+" + mobile
  }

  /** A number that already carries "+" is left alone; any other gets exactly one "+" in front. */
  lemma NormalizeMobileCases(mobile: string)
    ensures StartsWith(mobile, "+") ==> NormalizeMobile(mobile) == mobile
    ensures !StartsWith(mobile, "+") ==> NormalizeMobile(mobile) == "+" + mobile && NormalizeMobile(mobile)[1..] == mobile
  {
  }

  /** Normalising twice is normalising once. */
  lemma NormalizeMobileIdempotent(mobile: string)
    ensures NormalizeMobile(NormalizeMobile(mobile)) == NormalizeMobile(mobile)
  {
  }

  /**
   * The open id of the user registered under `mobile`. `directory` is the
   * contact service's answer for the normalised number; a missing token, a
   * non-zero code, an empty user list and a transport error all read as None.
   * An empty user id is not an id.
   */
  function OpenIdByMobile(mobile: string, directory: string -> Option<Id>): (r: Option<Id>)
    ensures r.Some? ==> r.value != "" && directory(NormalizeMobile(mobile)) == r
    ensures Truthy(directory(NormalizeMobile(mobile))) ==> r == directory(NormalizeMobile(mobile))
  {
    var answer := directory(NormalizeMobile(mobile));
    if Truthy(answer) then answer else None
  }

  // ---------------------------------------------------------------------------
  // _auto_load_admins
  // ---------------------------------------------------------------------------

  /**
   * One key/value pair of the .env file as dotenv reads it into its dictionary:
   * a repeated key appears once, with its last value, and a key written
   * without "=" has no value.
   */
  type EnvEntry = (string, Option<string>)

  const AdminKeyPrefix: string := "admin_phone"

  /** Only keys starting with "admin_phone" whose value is non-empty are looked up. */
  predicate IsAdminEntry(e: EnvEntry)
  {
    StartsWith(e.0, AdminKeyPrefix) && Truthy(e.1)
  }

  /** The id an entry contributes: its look-up result if it is an admin entry, nothing otherwise. */
  function EntryId(e: EnvEntry, directory: string -> Option<Id>): (r: Option<Id>)
    ensures r.Some? ==> IsAdminEntry(e) && r.value != ""
    ensures r.Some? <==> IsAdminEntry(e) && Truthy(directory(NormalizeMobile(e.1.value)))
    ensures r.Some? ==> r == directory(NormalizeMobile(e.1.value))
  {
    if IsAdminEntry(e) then OpenIdByMobile(e.1.value, directory) else None
  }

  /** Some entry of `entries` resolves to `x`. */
  ghost predicate Resolves(entries: seq<EnvEntry>, directory: string -> Option<Id>, x: Id)
  {
    exists i :: 0 <= i < |entries| && EntryId(entries[i], directory) == Some(x)
  }

  /** Some entry strictly before position `b` resolves to `x`. */
  ghost predicate ResolvedBefore(entries: seq<EnvEntry>, directory: string -> Option<Id>, x: Id, b: int)
  {
    exists a :: 0 <= a < b && a < |entries| && EntryId(entries[a], directory) == Some(x)
  }

  /** The administrator list being built, and how many ids the loop has appended. */
  datatype Loaded = Loaded(ids: seq<Id>, count: nat)

  /** One iteration of the loading loop. */
  function LoadEntry(s: Loaded, e: EnvEntry, directory: string -> Option<Id>): Loaded
  {
    match EntryId(e, directory)
    case None => s
    case Some(u) => if u in s.ids then s else Loaded(s.ids + [u], s.count + 1)
  }

  /** The loading loop over the entries in the order dotenv returns them (each key once, at its first position). */
  function LoadEntries(s: Loaded, entries: seq<EnvEntry>, directory: string -> Option<Id>): Loaded
    decreases |entries|
  {
    if entries == [] then s
    else LoadEntries(LoadEntry(s, entries[0], directory), entries[1..], directory)
  }

  /** Loading only appends: the old list is a prefix, `count` counts the appended ids, no id is repeated. */
  lemma {:induction false} LoadEntriesAppends(s: Loaded, entries: seq<EnvEntry>, directory: string -> Option<Id>)
    ensures var r := LoadEntries(s, entries, directory);
      && |s.ids| <= |r.ids| && r.ids[..|s.ids|] == s.ids
      && r.count == s.count + (|r.ids| - |s.ids|)
      && (NoDuplicates(s.ids) ==> NoDuplicates(r.ids))
    decreases |entries|
  {
    if entries != [] {
      var s1 := LoadEntry(s, entries[0], directory);
      LoadEntriesAppends(s1, entries[1..], directory);
      var r := LoadEntries(s1, entries[1..], directory);
      assert r.ids[..|s1.ids|] == s1.ids;
      assert s1.ids[..|s.ids|] == s.ids;
      assert r.ids[..|s.ids|] == r.ids[..|s1.ids|][..|s.ids|];
    }
  }

  /** The loaded list holds exactly the old ids and every id some admin entry resolved to. */
  lemma {:induction false} LoadEntriesMembers(s: Loaded, entries: seq<EnvEntry>, directory: string -> Option<Id>)
    ensures forall x :: x in LoadEntries(s, entries, directory).ids <==> x in s.ids || Resolves(entries, directory, x)
    decreases |entries|
  {
    if entries != [] {
      var s1 := LoadEntry(s, entries[0], directory);
      var rest := entries[1..];
      LoadEntriesMembers(s1, rest, directory);
      forall x
        ensures Resolves(entries, directory, x) <==> EntryId(entries[0], directory) == Some(x) || Resolves(rest, directory, x)
      {
        ResolvesFirst(entries, directory, x);
      }
    }
  }

  /** An id is resolved by a list exactly when its first entry or a later one resolves it. */
  lemma ResolvesFirst(entries: seq<EnvEntry>, directory: string -> Option<Id>, x: Id)
    requires entries != []
    ensures Resolves(entries, directory, x) <==> EntryId(entries[0], directory) == Some(x) || Resolves(entries[1..], directory, x)
  {
    var rest := entries[1..];
    if Resolves(entries, directory, x) {
      var i :| 0 <= i < |entries| && EntryId(entries[i], directory) == Some(x);
      if i > 0 {
        assert EntryId(rest[i - 1], directory) == Some(x);
      }
    }
    if Resolves(rest, directory, x) {
      var i :| 0 <= i < |rest| && EntryId(rest[i], directory) == Some(x);
      assert EntryId(entries[i + 1], directory) == Some(x);
    }
  }

  /**
   * Ids are appended in the order of their first resolving entry: an id that
   * ended up earlier in the list was resolved by an entry before every entry
   * resolving a later id.
   */
  lemma LoadEntriesFirstOccurrenceOrder(s: Loaded, entries: seq<EnvEntry>, directory: string -> Option<Id>)
    requires NoDuplicates(s.ids)
    ensures var r := LoadEntries(s, entries, directory);
      forall i, j, b :: |s.ids| <= i < j < |r.ids| && 0 <= b < |entries| && EntryId(entries[b], directory) == Some(r.ids[j])
        ==> ResolvedBefore(entries, directory, r.ids[i], b)
  {
    var r := LoadEntries(s, entries, directory);
    forall i, j, b | |s.ids| <= i < j < |r.ids| && 0 <= b < |entries| && EntryId(entries[b], directory) == Some(r.ids[j])
      ensures ResolvedBefore(entries, directory, r.ids[i], b)
    {
      FirstOccurrenceAt(s, entries, directory, i, j, b);
    }
  }

  /** One instance of the order property, by peeling off the first entry. */
  lemma {:induction false} FirstOccurrenceAt(s: Loaded, entries: seq<EnvEntry>, directory: string -> Option<Id>, i: nat, j: nat, b: nat)
    requires NoDuplicates(s.ids)
    requires var r := LoadEntries(s, entries, directory);
      |s.ids| <= i < j < |r.ids| && b < |entries| && EntryId(entries[b], directory) == Some(r.ids[j])
    ensures ResolvedBefore(entries, directory, LoadEntries(s, entries, directory).ids[i], b)
    decreases |entries|
  {
    var r := LoadEntries(s, entries, directory);
    var s1 := LoadEntry(s, entries[0], directory);
    var rest := entries[1..];
    assert r == LoadEntries(s1, rest, directory);
    assert NoDuplicates(s1.ids) && (s1.ids == s.ids || s1.ids == s.ids + [EntryId(entries[0], directory).value]) by {
      LoadEntriesAppends(s, [entries[0]], directory);
      assert LoadEntries(s, [entries[0]], directory) == s1 by {
        assert [entries[0]][1..] == [];
      }
    }
    assert |s1.ids| <= |r.ids| && r.ids[..|s1.ids|] == s1.ids && NoDuplicates(r.ids) by {
      LoadEntriesAppends(s1, rest, directory);
    }
    // an id the first entry resolved sits in s1.ids, so it cannot be the later r.ids[j]
    PrefixPosition(r.ids, s1.ids, j);
    var later := r.ids[j];
    assert EntryId(entries[0], directory) == Some(later) ==> later in s1.ids;
    assert b != 0;
    if i < |s1.ids| {
      // r.ids[i] is the id entries[0] appended
      assert r.ids[i] == s1.ids[i];
      AppendedByEntry(s, entries[0], directory, i);
    } else {
      assert EntryId(rest[b - 1], directory) == Some(r.ids[j]);
      FirstOccurrenceAt(s1, rest, directory, i, j, b - 1);
      var a :| 0 <= a < b - 1 && a < |rest| && EntryId(rest[a], directory) == Some(r.ids[i]);
      assert EntryId(entries[a + 1], directory) == Some(r.ids[i]);
    }
  }

  /** An id one iteration added beyond the old list is the one its entry resolved to. */
  lemma AppendedByEntry(s: Loaded, e: EnvEntry, directory: string -> Option<Id>, i: nat)
    requires |s.ids| <= i < |LoadEntry(s, e, directory).ids|
    ensures EntryId(e, directory) == Some(LoadEntry(s, e, directory).ids[i])
  {
  }

  /** In a list without duplicates, an element that also occurs in a prefix occurs only inside that prefix. */
  lemma PrefixPosition(s: seq<Id>, prefix: seq<Id>, j: int)
    requires NoDuplicates(s) && |prefix| <= |s| && s[..|prefix|] == prefix
    requires 0 <= j < |s|
    ensures s[j] in prefix ==> j < |prefix|
  {
    if s[j] in prefix {
      var k :| 0 <= k < |prefix| && prefix[k] == s[j];
      assert s[k] == s[j];
    }
  }

  /** Loading a concatenation is loading the first part and then the second. */
  lemma {:induction false} LoadEntriesConcat(s: Loaded, a: seq<EnvEntry>, b: seq<EnvEntry>, directory: string -> Option<Id>)
    ensures LoadEntries(s, a + b, directory) == LoadEntries(LoadEntries(s, a, directory), b, directory)
    decreases |a|
  {
    if a != [] {
      assert (a + b)[0] == a[0];
      assert (a + b)[1..] == a[1..] + b;
      var s1 := LoadEntry(s, a[0], directory);
      LoadEntriesConcat(s1, a[1..], b, directory);
      assert LoadEntries(s, a + b, directory) == LoadEntries(s1, a[1..] + b, directory);
      assert LoadEntries(s, a, directory) == LoadEntries(s1, a[1..], directory);
    } else {
      assert a + b == b;
    }
  }

  /**
   * An entry that contributes no id (not an admin entry, or its look-up
   * failed) changes nothing and does not stop the entries after it.
   */
  lemma FailedEntrySkipped(s: Loaded, before: seq<EnvEntry>, e: EnvEntry, after: seq<EnvEntry>, directory: string -> Option<Id>)
    requires EntryId(e, directory) == None
    ensures LoadEntries(s, before + [e] + after, directory) == LoadEntries(s, before + after, directory)
  {
    var mid := LoadEntries(s, before, directory);
    LoadEntriesConcat(s, before + [e], after, directory);
    LoadEntriesConcat(s, before, [e], directory);
    assert LoadEntries(mid, [e], directory) == mid by {
      assert [e][1..] == [];
    }
    LoadEntriesConcat(s, before, after, directory);
  }

  /** Only the admin entries' numbers are looked up: directories agreeing on them load the same list. */
  lemma {:induction false} LoadEntriesLooksUpOnlyAdminEntries(s: Loaded, entries: seq<EnvEntry>, d1: string -> Option<Id>, d2: string -> Option<Id>)
    requires forall i :: 0 <= i < |entries| && IsAdminEntry(entries[i]) ==>
      d1(NormalizeMobile(entries[i].1.value)) == d2(NormalizeMobile(entries[i].1.value))
    ensures LoadEntries(s, entries, d1) == LoadEntries(s, entries, d2)
    decreases |entries|
  {
    if entries != [] {
      assert LoadEntry(s, entries[0], d1) == LoadEntry(s, entries[0], d2);
      assert forall i :: 0 <= i < |entries[1..]| ==> entries[1..][i] == entries[i + 1];
      LoadEntriesLooksUpOnlyAdminEntries(LoadEntry(s, entries[0], d1), entries[1..], d1, d2);
    }
  }

  /**
   * `_auto_load_admins` starting from the empty list the constructor sets up:
   * the result has no duplicates, `count` is its length, and it holds
   * exactly the ids the admin entries resolved to.
   */
  function AutoLoadAdmins(entries: seq<EnvEntry>, directory: string -> Option<Id>): (r: Loaded)
    ensures NoDuplicates(r.ids)
    ensures r.count == |r.ids|
    ensures forall x :: x in r.ids <==> Resolves(entries, directory, x)
  {
    LoadEntriesAppends(Loaded([], 0), entries, directory);
    LoadEntriesMembers(Loaded([], 0), entries, directory);
    LoadEntries(Loaded([], 0), entries, directory)
  }

  /**
   * The notifier's `admin_ids` after construction: loaded from the .env file
   * only when both app credentials are configured and the file exists.
   */
  function NotifierAdmins(hasCredentials: bool, envFile: Option<seq<EnvEntry>>, directory: string -> Option<Id>): (ids: seq<Id>)
    ensures !hasCredentials || envFile.None? ==> ids == []
    ensures hasCredentials && envFile.Some? ==>
      forall x :: x in ids <==> Resolves(envFile.value, directory, x)
    ensures NoDuplicates(ids)
  {
    if hasCredentials && envFile.Some? then AutoLoadAdmins(envFile.value, directory).ids else []
  }

  // ---------------------------------------------------------------------------
  // The alert card of _send_single_card
  // ---------------------------------------------------------------------------

  /** The card elements the notifier uses. */
  datatype Element = Div(text: string) | Img(imageKey: Id) | Hr | Note(text: string)

  /** An interactive card: the header title and the body elements. */
  datatype Card = Card(title: string, elements: seq<Element>)

  const FlamePrefix: string := "🔥 "
  const NoteText: string := "系统自动加急报警"

  /** The body text: the send time, then the details. */
  function DetailText(stamp: string, content: string): (t: string)
    ensures StartsWith(t, "**时间**: " + stamp + "\n")
    ensures EndsWith(t, "**详情**: " + content)
    ensures EndsWith(t, content)
    ensures |t| == |"**时间**: "| + |stamp| + |"\n**详情**: "| + |content|
  {
    "**时间**: " + stamp + "\n**详情**: " + content
  }

  /** The title, tagged with the configured keyword when there is one. */
  function FinalTitle(keyword: string, title: string): (t: string)
    ensures EndsWith(t, title)
    ensures t == title <==> keyword == ""
    ensures keyword != "" ==> StartsWith(t, "【" + keyword + "】")
    ensures |t| == |title| + (if keyword != "" then |keyword| + 2 else 0)
  {
    if keyword != "" then "【" + keyword + "】" + title else title
  }

  /**
   * The card sent to one administrator: a detail block, the picture when an
   * image key is present, a rule, and the footer note.
   */
  function AlertCard(title: string, content: string, imageKey: Option<Id>, keyword: string, stamp: string): (c: Card)
    ensures c.title == FlamePrefix + FinalTitle(keyword, title)
    ensures |c.elements| == (if Truthy(imageKey) then 4 else 3)
    ensures c.elements[0] == Div(DetailText(stamp, content))
    ensures Truthy(imageKey) ==> c.elements[1] == Img(imageKey.value)
    ensures c.elements[|c.elements| - 2] == Hr && c.elements[|c.elements| - 1] == Note(NoteText)
    ensures forall k :: 0 <= k < |c.elements| && c.elements[k].Img? ==> k == 1 && Truthy(imageKey)
  {
    var header := FlamePrefix + FinalTitle(keyword, title);
    var detail := Div(DetailText(stamp, content));
    if Truthy(imageKey) then Card(header, [detail, Img(imageKey.value), Hr, Note(NoteText)])
    else Card(header, [detail, Hr, Note(NoteText)])
  }

  // ---------------------------------------------------------------------------
  // buzz_message
  // ---------------------------------------------------------------------------

  const MessagesUrl: string := "https://open.feishu.cn/open-apis/im/v1/messages/"

  /** A buzz raised on a sent message for some users at some tier. */
  datatype BuzzCall = BuzzCall(messageId: Id, users: seq<Id>, tier: Tier)

  /** The PATCH request buzz_message issues: endpoint, `user_id_list`, `urgent_type`. */
  datatype BuzzRequest = BuzzRequest(url: string, userIds: seq<Id>, urgentType: string)

  /** What came back: nothing (transport error) or a JSON body with or without a `code`. */
  datatype BuzzResponse = NoResponse | Response(code: Option<int>)

  /** The endpoint of a buzz: the message's resource followed by "urgent_" and the tier's name. */
  function BuzzUrl(messageId: Id, tier: Tier): (url: string)
    ensures StartsWith(url, MessagesUrl + messageId + "/")
    ensures EndsWith(url, "urgent_" + TierName(tier))
    ensures |url| == |MessagesUrl| + |messageId| + |"/urgent_"| + |TierName(tier)|
  {
    MessagesUrl + messageId + "/urgent_" + TierName(tier)
  }

  /** Two buzzes on one message with the same endpoint have the same tier. */
  lemma BuzzUrlDeterminesTier(messageId: Id, t1: Tier, t2: Tier)
    requires BuzzUrl(messageId, t1) == BuzzUrl(messageId, t2)
    ensures t1 == t2
  {
    var n := |MessagesUrl + messageId + "/urgent_"|;
    assert BuzzUrl(messageId, t1)[n..] == TierName(t1);
    assert BuzzUrl(messageId, t2)[n..] == TierName(t2);
    ParseTierName(t1);
    ParseTierName(t2);
  }

  /**
   * buzz_message: the request it sends, and its verdict, which is success
   * exactly when the response carries code 0.
   */
  function BuzzMessage(call: BuzzCall, response: BuzzResponse): (r: (BuzzRequest, bool))
    ensures r.0.url == BuzzUrl(call.messageId, call.tier)
    ensures EndsWith(r.0.url, "urgent_" + r.0.urgentType)
    ensures ParseTier(r.0.urgentType) == Some(call.tier)
    ensures r.0.userIds == call.users
    ensures r.1 <==> response == Response(Some(0))
  {
    ParseTierName(call.tier);
    (BuzzRequest(BuzzUrl(call.messageId, call.tier), call.users, TierName(call.tier)),
     response.Response? && response.code == Some(0))
  }

  // ---------------------------------------------------------------------------
  // _send_single_card and send_to_all_admins
  // ---------------------------------------------------------------------------

  /**
   * What the message endpoint did for one recipient: not sent (no token, a
   * non-zero code or a transport error) or delivered under a message id.
   */
  datatype SendReply = NotSent | Delivered(messageId: Id)

  /** The gateway's answers for one broadcast: the rendered send time, the upload's image key, one reply per recipient. */
  datatype SendOracle = SendOracle(stamp: string, imageKey: Option<Id>, replies: seq<SendReply>)

  /** One call of _send_single_card: the recipient, the card, and the buzz raised after a delivery. */
  datatype Attempt = Attempt(receiver: Id, card: Card, buzz: Option<BuzzCall>)

  /** One call of send_to_all_admins: the image path uploaded (if any), the attempts in order, the verdict. */
  datatype Broadcast = Broadcast(uploaded: Option<string>, attempts: seq<Attempt>, ok: bool)

  /** _send_single_card: the recipient alone is buzzed, at the broadcast's tier, and only after a delivery. */
  function SendSingleCard(card: Card, receiver: Id, tier: Tier, reply: SendReply): (a: Attempt)
    ensures a.receiver == receiver && a.card == card
    ensures a.buzz.Some? <==> reply.Delivered?
    ensures a.buzz.Some? ==> a.buzz.value == BuzzCall(reply.messageId, [receiver], tier)
  {
    match reply
    case NotSent => Attempt(receiver, card, None)
    case Delivered(m) => Attempt(receiver, card, Some(BuzzCall(m, [receiver], tier)))
  }

  /** The fan-out loop: one attempt per recipient, in list order. */
  function SendEach(receivers: seq<Id>, card: Card, tier: Tier, replies: seq<SendReply>): (attempts: seq<Attempt>)
    requires |replies| == |receivers|
    ensures |attempts| == |receivers|
    ensures forall i :: 0 <= i < |receivers| ==>
      && attempts[i].receiver == receivers[i]
      && attempts[i].card == card
      && (attempts[i].buzz.Some? <==> replies[i].Delivered?)
      && (attempts[i].buzz.Some? ==> attempts[i].buzz.value == BuzzCall(replies[i].messageId, [receivers[i]], tier))
    decreases |receivers|
  {
    if receivers == [] then []
    else [SendSingleCard(card, receivers[0], tier, replies[0])] + SendEach(receivers[1..], card, tier, replies[1..])
  }

  /** `success_count`: the attempts that were delivered. */
  function Successes(attempts: seq<Attempt>): (n: nat)
    ensures n <= |attempts|
    ensures n == |attempts| <==> forall i :: 0 <= i < |attempts| ==> attempts[i].buzz.Some?
    decreases |attempts|
  {
    if attempts == [] then 0
    else (if attempts[0].buzz.Some? then 1 else 0) + Successes(attempts[1..])
  }

  /** At least one success is counted exactly when some attempt was delivered. */
  lemma {:induction false} SuccessesPositive(attempts: seq<Attempt>)
    ensures Successes(attempts) > 0 <==> exists i :: 0 <= i < |attempts| && attempts[i].buzz.Some?
    decreases |attempts|
  {
    if attempts != [] {
      SuccessesPositive(attempts[1..]);
      if Successes(attempts[1..]) > 0 {
        var i :| 0 <= i < |attempts[1..]| && attempts[1..][i].buzz.Some?;
        assert attempts[i + 1].buzz.Some?;
      }
      if exists i :: 0 <= i < |attempts| && attempts[i].buzz.Some? {
        var i :| 0 <= i < |attempts| && attempts[i].buzz.Some?;
        if i > 0 {
          assert attempts[1..][i - 1].buzz.Some?;
        }
      }
    }
  }

  /**
   * send_to_all_admins. With no administrators it reports failure before
   * touching the gateway. Otherwise it uploads the picture once (falling back
   * to a text-only card when the upload yields no key), sends one card per
   * administrator in list order, and succeeds when at least one was delivered.
   */
  function SendToAllAdmins(admins: seq<Id>, keyword: string, title: string, content: string,
                           imagePath: Option<string>, tier: Tier, oracle: SendOracle): (b: Broadcast)
    requires |oracle.replies| == |admins|
    ensures admins == [] ==> b == Broadcast(None, [], false)
    ensures b.uploaded.Some? <==> admins != [] && Truthy(imagePath)
    ensures b.uploaded.Some? ==> b.uploaded == imagePath
    ensures |b.attempts| == |admins|
    ensures forall i :: 0 <= i < |admins| ==>
      && b.attempts[i].receiver == admins[i]
      && b.attempts[i].card == b.attempts[0].card
      && (b.attempts[i].buzz.Some? <==> oracle.replies[i].Delivered?)
      && (b.attempts[i].buzz.Some? ==> b.attempts[i].buzz.value == BuzzCall(oracle.replies[i].messageId, [admins[i]], tier))
    ensures admins != [] ==>
      |b.attempts[0].card.elements| == (if Truthy(imagePath) && Truthy(oracle.imageKey) then 4 else 3)
    ensures admins != [] ==>
      b.attempts[0].card == AlertCard(title, content, if Truthy(imagePath) then oracle.imageKey else None, keyword, oracle.stamp)
    ensures b.ok <==> exists i :: 0 <= i < |admins| && oracle.replies[i].Delivered?
    ensures Successes(b.attempts) <= |admins|
  {
    if admins == [] then Broadcast(None, [], false)
    else
      var uploaded := if Truthy(imagePath) then imagePath else None;
      var imageKey := if Truthy(imagePath) then oracle.imageKey else None;
      var card := AlertCard(title, content, imageKey, keyword, oracle.stamp);
      var attempts := SendEach(admins, card, tier, oracle.replies);
      SuccessesPositive(attempts);
      Broadcast(uploaded, attempts, Successes(attempts) > 0)
  }
}

=== FILE: group_alarm.dfy ===
/**
 * The group-chat escalation flow (`Communication.run_fire_alarm_process_feishu`):
 * post one alarm card to the group, buzz the administrators on that message by
 * SMS, poll the group for any reply, and on timeout buzz the same message again
 * by phone.
 */
module GroupAlarm {
  import opened Common
  import opened Trace
  import Feishu
  import Polling

  const GroupTitle: string := "实验室火灾警报"
  const GroupContent: string := "检测到明火！请成员立即检查!!。"

  /**
   * The notifier's answers during one run that the flow looks at: the message
   * id `send_card_to_group` returned (None when the post failed) and the k-th
   * group reply check (`check_chat_reply`). Buzz results are discarded.
   */
  datatype Gateway = Gateway(messageId: Option<Id>, answers: nat -> bool)

  /** The group card that opens every run. */
  function GroupCard(imagePath: string): Call
  {
    SendGroupCard(GroupTitle, GroupContent, imagePath)
  }

  /** The administrators are buzzed only when there are any. */
  function BuzzAdmins(messageId: Id, admins: seq<Id>, tier: Tier): (t: seq<Call>)
    ensures |t| <= 1
    ensures t != [] <==> admins != []
    ensures forall k :: 0 <= k < |t| ==> t[k] == Buzz(Feishu.BuzzCall(messageId, admins, tier))
  {
    if admins != [] then [Buzz(Feishu.BuzzCall(messageId, admins, tier))] else []
  }

  /** The poll of the group: one check per round, every check asking about replies since `since`. */
  function GroupPoll(since: Timestamp, answers: nat -> bool): (p: Polling.Polled)
    ensures p.confirmed <==> exists k :: 0 <= k < Polling.Rounds && answers(k)
  {
    Polling.Poll([CheckChat(since)], answers, Polling.Rounds)
  }

  /**
   * One run of the flow for the notifier's `admins`; `since` is the moment read
   * before the card was posted. Without a message id the run gives up right
   * after the post; else the administrators are buzzed by SMS (when there are
   * any), the group is polled, and only a poll that timed out is followed by a
   * phone buzz on the same message (again only when there are administrators).
   * A confirmed run ends with the confirming check.
   */
  function RunGroupAlarm(admins: seq<Id>, imagePath: string, since: Timestamp, g: Gateway): (r: Run)
    ensures |r.trace| >= 1 && r.trace[0] == GroupCard(imagePath)
    ensures r.outcome == Aborted <==> !Truthy(g.messageId)
    ensures r.outcome == Aborted ==> |r.trace| == 1
    ensures Truthy(g.messageId) ==>
      (r.outcome == Confirmed <==> exists k :: 0 <= k < Polling.Rounds && g.answers(k))
    ensures Truthy(g.messageId) && admins != [] ==>
      |r.trace| >= 2 && r.trace[1] == Buzz(Feishu.BuzzCall(g.messageId.value, admins, Sms))
    ensures r.outcome != Aborted ==>
      r.trace[|r.trace| - 1] ==
        if r.outcome == Confirmed then CheckChat(since)
        else if admins == [] then Sleep
        else Buzz(Feishu.BuzzCall(g.messageId.value, admins, Phone))
    ensures r.outcome == TimedOut && admins != [] ==> |r.trace| >= 2 && r.trace[|r.trace| - 2] == Sleep
    ensures Truthy(g.messageId) ==>
      var h := if admins != [] then 2 else 1;
      var e := if r.outcome == TimedOut && admins != [] then 1 else 0;
      && |r.trace| == h + |GroupPoll(since, g.answers).trace| + e
      && r.trace[h..|r.trace| - e] == GroupPoll(since, g.answers).trace
  {
    if !Truthy(g.messageId) then Run([GroupCard(imagePath)], Aborted)
    else
      var m := g.messageId.value;
      var p := GroupPoll(since, g.answers);
      GroupPollEnds(since, g.answers);
      var sms := BuzzAdmins(m, admins, Sms);
      var phone := if p.confirmed then [] else BuzzAdmins(m, admins, Phone);
      Framed(GroupCard(imagePath), sms, p.trace, phone);
      Run([GroupCard(imagePath)] + sms + p.trace + phone, if p.confirmed then Confirmed else TimedOut)
  }

  /** Where the parts of a card, a buzz list, a poll and a closing list sit in their concatenation. */
  lemma Framed(card: Call, sms: seq<Call>, poll: seq<Call>, phone: seq<Call>)
    ensures var t := [card] + sms + poll + phone;
      && |t| == 1 + |sms| + |poll| + |phone|
      && t[0] == card
      && (sms != [] ==> t[1] == sms[0])
      && t[1 + |sms|..|t| - |phone|] == poll
      && (phone != [] ==> t[|t| - 1] == phone[|phone| - 1])
      && (phone == [] && poll != [] ==> t[|t| - 1] == poll[|poll| - 1])
      && (poll != [] ==> t[|t| - 1 - |phone|] == poll[|poll| - 1])
  {
    var t := [card] + sms + poll + phone;
    SliceParts([card] + sms, poll, phone);
    if poll != [] {
      assert t[|t| - 1 - |phone|] == t[1 + |sms|..|t| - |phone|][|poll| - 1];
    }
  }

  /** The group poll only checks the group since `since` and pauses. */
  lemma GroupPollCalls(since: Timestamp, answers: nat -> bool)
    ensures forall x :: x in GroupPoll(since, answers).trace ==> x == Sleep || x == CheckChat(since)
  {
    GroupPollFacts(since, answers);
  }

  /** A confirmed group poll ends on a group check, one that timed out on a pause. */
  lemma GroupPollEnds(since: Timestamp, answers: nat -> bool)
    ensures var p := GroupPoll(since, answers);
      && p.trace != []
      && p.trace[|p.trace| - 1] == (if p.confirmed then CheckChat(since) else Sleep)
  {
    GroupPollFacts(since, answers);
  }

  /**
   * The group poll: every call is a pause or a check of the group since
   * `since`, at most 36 checks go out, it stops at the first positive answer,
   * it confirms exactly when one of the first 36 checks is positive, a
   * confirmed poll ends on its positive check with one pause behind each
   * earlier check, and a poll that timed out made 36 checks and 36 pauses.
   */
  lemma GroupPollFacts(since: Timestamp, answers: nat -> bool)
    ensures var p := GroupPoll(since, answers);
      var c := |Checks(p.trace)|;
      && (forall x :: x in p.trace ==> x == Sleep || x == CheckChat(since))
      && c <= Polling.Rounds
      && (forall k :: 0 <= k < c ==> Checks(p.trace)[k] == CheckChat(since))
      && (forall k :: 0 <= k < c - 1 ==> !answers(k))
      && (p.confirmed <==> exists k :: 0 <= k < Polling.Rounds && answers(k))
      && (p.confirmed <==> c > 0 && answers(c - 1))
      && (p.confirmed ==> Sleeps(p.trace) == c - 1 && p.trace[|p.trace| - 1] == CheckChat(since))
      && (!p.confirmed ==> c == Polling.Rounds && Sleeps(p.trace) == Polling.Rounds)
      && (!p.confirmed ==> p.trace != [] && p.trace[|p.trace| - 1] == Sleep)
  {
    var probes := [CheckChat(since)];
    Polling.PollFacts(probes, answers, Polling.Rounds);
    var p := GroupPoll(since, answers);
    var c := |Checks(p.trace)|;
    assert Polling.Rounds * |probes| == Polling.Rounds;
    assert forall k :: 0 <= k < c ==> k % |probes| == 0;
    if p.confirmed {
      assert (c - 1) / |probes| == c - 1;
      assert p.trace[|p.trace| - 1] in probes;
    }
  }

  /** The poll contributes no buzz. */
  lemma GroupPollHasNoBuzz(since: Timestamp, answers: nat -> bool)
    ensures BuzzTiers(GroupPoll(since, answers).trace) == []
  {
    var t := GroupPoll(since, answers).trace;
    GroupPollFacts(since, answers);
    forall k | 0 <= k < |t|
      ensures !t[k].Buzz?
    {
      assert t[k] in t;
    }
    BuzzTiersNone(t);
  }

  /** The buzz tiers of a card, an SMS buzz, a poll without buzzes, and a phone buzz after a timeout. */
  lemma EscalationTiers(card: Call, m: Id, admins: seq<Id>, poll: seq<Call>, timedOut: bool)
    requires !card.Buzz? && BuzzTiers(poll) == []
    ensures var phone := if timedOut then BuzzAdmins(m, admins, Phone) else [];
      BuzzTiers([card] + BuzzAdmins(m, admins, Sms) + poll + phone)
        == if admins == [] then [] else if timedOut then [Sms, Phone] else [Sms]
  {
    var sms := BuzzAdmins(m, admins, Sms);
    var phone := if timedOut then BuzzAdmins(m, admins, Phone) else [];
    BuzzTiersSingle([card]);
    BuzzTiersSingle(sms);
    BuzzTiersSingle(phone);
    BuzzTiersBetween([card], sms, poll, phone);
  }

  /**
   * The tiers a run buzzes with: none when the post failed or there are no
   * administrators, otherwise SMS alone after a confirmation and SMS then
   * phone after a timeout. So the escalation never goes down a tier and phone
   * is used at most once.
   */
  lemma GroupBuzzTiers(admins: seq<Id>, imagePath: string, since: Timestamp, g: Gateway)
    ensures var r := RunGroupAlarm(admins, imagePath, since, g);
      BuzzTiers(r.trace) ==
        if r.outcome == Aborted || admins == [] then []
        else if r.outcome == Confirmed then [Sms]
        else [Sms, Phone]
  {
    var r := RunGroupAlarm(admins, imagePath, since, g);
    if r.outcome != Aborted {
      GroupPollHasNoBuzz(since, g.answers);
      EscalationTiers(GroupCard(imagePath), g.messageId.value, admins, GroupPoll(since, g.answers).trace, r.outcome == TimedOut);
    } else {
      BuzzTiersSingle(r.trace);
    }
  }

  /** Each buzz of a run is of a strictly higher tier than every buzz before it. */
  lemma GroupBuzzTiersRise(admins: seq<Id>, imagePath: string, since: Timestamp, g: Gateway)
    ensures var ts := BuzzTiers(RunGroupAlarm(admins, imagePath, since, g).trace);
      forall i, j :: 0 <= i < j < |ts| ==> Rank(ts[i]) < Rank(ts[j])
  {
    GroupBuzzTiers(admins, imagePath, since, g);
  }

  /** Every buzz in `t` is on message `m` and goes to `admins`. */
  predicate BuzzesOn(t: seq<Call>, m: Id, admins: seq<Id>)
  {
    forall k :: 0 <= k < |t| && t[k].Buzz? ==> t[k].buzz.messageId == m && t[k].buzz.users == admins
  }

  /** Buzz targets survive concatenation. */
  lemma BuzzesOnConcat(a: seq<Call>, b: seq<Call>, m: Id, admins: seq<Id>)
    requires BuzzesOn(a, m, admins) && BuzzesOn(b, m, admins)
    ensures BuzzesOn(a + b, m, admins)
  {
    forall k | 0 <= k < |a + b| && (a + b)[k].Buzz?
      ensures (a + b)[k].buzz.messageId == m && (a + b)[k].buzz.users == admins
    {
      if k >= |a| {
        assert (a + b)[k] == b[k - |a|];
      }
    }
  }

  /** Every buzz of a run is on the posted message and goes to all the administrators. */
  lemma GroupBuzzTargets(admins: seq<Id>, imagePath: string, since: Timestamp, g: Gateway)
    ensures var r := RunGroupAlarm(admins, imagePath, since, g);
      forall k :: 0 <= k < |r.trace| && r.trace[k].Buzz? ==>
        && Truthy(g.messageId)
        && r.trace[k].buzz.messageId == g.messageId.value
        && r.trace[k].buzz.users == admins
  {
    if Truthy(g.messageId) {
      var m := g.messageId.value;
      var sms := BuzzAdmins(m, admins, Sms);
      var p := GroupPoll(since, g.answers);
      var phone := if p.confirmed then [] else BuzzAdmins(m, admins, Phone);
      assert BuzzesOn(p.trace, m, admins) by {
        GroupPollFacts(since, g.answers);
        forall k | 0 <= k < |p.trace|
          ensures !p.trace[k].Buzz?
        {
          assert p.trace[k] in p.trace;
        }
      }
      assert BuzzesOn([GroupCard(imagePath)], m, admins);
      BuzzesOnConcat([GroupCard(imagePath)], sms, m, admins);
      BuzzesOnConcat([GroupCard(imagePath)] + sms, p.trace, m, admins);
      BuzzesOnConcat([GroupCard(imagePath)] + sms + p.trace, phone, m, admins);
      assert RunGroupAlarm(admins, imagePath, since, g).trace == [GroupCard(imagePath)] + sms + p.trace + phone;
    }
  }

  /**
   * The group card is posted once, as the run's first call; every later call
   * is a buzz, a check of the group since `since`, or a pause.
   */
  lemma GroupPostsOnce(admins: seq<Id>, imagePath: string, since: Timestamp, g: Gateway)
    ensures var r := RunGroupAlarm(admins, imagePath, since, g);
      && r.trace[0].SendGroupCard?
      && forall k :: 1 <= k < |r.trace| ==>
        r.trace[k].Buzz? || r.trace[k] == CheckChat(since) || r.trace[k] == Sleep
  {
    var r := RunGroupAlarm(admins, imagePath, since, g);
    if Truthy(g.messageId) {
      var p := GroupPoll(since, g.answers);
      var h := if admins != [] then 2 else 1;
      var e := if r.outcome == TimedOut && admins != [] then 1 else 0;
      GroupPollCalls(since, g.answers);
      forall k | 1 <= k < |r.trace|
        ensures r.trace[k].Buzz? || r.trace[k] == CheckChat(since) || r.trace[k] == Sleep
      {
        if k < h {
          assert k == 1;
        } else if k < |r.trace| - e {
          assert r.trace[k] == r.trace[h..|r.trace| - e][k - h];
          assert p.trace[k - h] in p.trace;
        } else {
          assert k == |r.trace| - 1;
        }
      }
    }
  }

  /** The checks and pauses of a run that got a message id are those of its poll. */
  lemma RunFramesPoll(admins: seq<Id>, imagePath: string, since: Timestamp, g: Gateway)
    requires Truthy(g.messageId)
    ensures var r := RunGroupAlarm(admins, imagePath, since, g);
      var p := GroupPoll(since, g.answers);
      Checks(r.trace) == Checks(p.trace) && Sleeps(r.trace) == Sleeps(p.trace)
  {
    var m := g.messageId.value;
    var sms := BuzzAdmins(m, admins, Sms);
    var p := GroupPoll(since, g.answers);
    var phone := if p.confirmed then [] else BuzzAdmins(m, admins, Phone);
    var head := [GroupCard(imagePath)] + sms;
    assert Quiet(head) by {
      assert Quiet([GroupCard(imagePath)]);
      QuietConcat([GroupCard(imagePath)], sms);
    }
    ChecksFramed(head, p.trace, phone);
  }

  /** A confirmed run ends with the last call of its poll. */
  lemma ConfirmedRunEndsPoll(admins: seq<Id>, imagePath: string, since: Timestamp, g: Gateway)
    requires RunGroupAlarm(admins, imagePath, since, g).outcome == Confirmed
    ensures var r := RunGroupAlarm(admins, imagePath, since, g);
      var p := GroupPoll(since, g.answers);
      p.trace != [] && r.trace[|r.trace| - 1] == p.trace[|p.trace| - 1]
  {
    var p := GroupPoll(since, g.answers);
    GroupPollFacts(since, g.answers);
    assert p.trace != [];
  }

  /**
   * The group polling phase read off a run that got a message id: every check
   * asks about the group since the same moment, at most 36 are made, the run
   * confirms exactly when one of the first 36 checks is positive, and then its
   * last call is that check.
   */
  lemma GroupPollingPhase(admins: seq<Id>, imagePath: string, since: Timestamp, g: Gateway)
    requires Truthy(g.messageId)
    ensures var r := RunGroupAlarm(admins, imagePath, since, g);
      && Checks(r.trace) == Checks(GroupPoll(since, g.answers).trace)
      && |Checks(r.trace)| <= Polling.Rounds
      && (forall k :: 0 <= k < |Checks(r.trace)| ==> Checks(r.trace)[k] == CheckChat(since))
      && (r.outcome == Confirmed <==> exists k :: 0 <= k < Polling.Rounds && g.answers(k))
      && (r.outcome == Confirmed ==> r.trace[|r.trace| - 1] == CheckChat(since))
      && (r.outcome == TimedOut ==> Sleeps(r.trace) == Polling.Rounds)
  {
    GroupPollFacts(since, g.answers);
    RunFramesPoll(admins, imagePath, since, g);
    if RunGroupAlarm(admins, imagePath, since, g).outcome == Confirmed {
      ConfirmedRunEndsPoll(admins, imagePath, since, g);
    }
  }

  /**
   * A failed post ends the run at once: no buzz and no check, whatever the
   * administrators and the group's answers.
   */
  lemma NoMessageNoEscalation(admins: seq<Id>, imagePath: string, since: Timestamp, g: Gateway)
    requires !Truthy(g.messageId)
    ensures RunGroupAlarm(admins, imagePath, since, g) == Run([GroupCard(imagePath)], Aborted)
  {
  }

  /** The group answers the first check: the card, the SMS buzz, one check, and nothing else. */
  lemma FirstCheckConfirms(admins: seq<Id>, m: Id, imagePath: string, since: Timestamp, answers: nat -> bool)
    requires m != "" && admins != [] && answers(0)
    ensures var r := RunGroupAlarm(admins, imagePath, since, Gateway(Some(m), answers));
      && r.outcome == Confirmed
      && r.trace == [GroupCard(imagePath), Buzz(Feishu.BuzzCall(m, admins, Sms)), CheckChat(since)]
  {
    var r := RunGroupAlarm(admins, imagePath, since, Gateway(Some(m), answers));
    FirstCheckPoll(since, answers);
    assert r.outcome == Confirmed;
    assert r.trace[2..] == [CheckChat(since)];
    assert r.trace[2] == r.trace[2..][0];
  }

  /** The poll of the scenario above, on its own: one check, which confirms. */
  lemma FirstCheckPoll(since: Timestamp, answers: nat -> bool)
    requires answers(0)
    ensures GroupPoll(since, answers) == Polling.Polled(true, [CheckChat(since)])
  {
    var probes := [CheckChat(since)];
    assert Polling.FirstPositive(answers, 0, Polling.Rounds * |probes|) == 0;
    assert Polling.ChecksMade(answers, Polling.Rounds * |probes|) == 1;
    assert Polling.Step(probes, answers, 0) == [CheckChat(since)];
    assert Polling.Schedule(probes, answers, 1) == [CheckChat(since)];
  }
}

=== FILE: polling.dfy ===
/**
 * The bounded confirmation poll both escalation flows run: up to
 * `WaitSeconds / CheckInterval` rounds; in each round the reply checks
 * ("probes") are issued in list order until one is positive; a round that
 * saw no positive answer is followed by a pause. `answers(k)` is what the
 * k-th check of the run returns (the check is assumed to answer, never to raise).
 */
module Polling {
  import opened Common
  import opened Trace

  const WaitSeconds: nat := 180
  const CheckInterval: nat := 5

  /** `wait_seconds // 5`: the number of polling rounds, 36. */
  const Rounds: nat := WaitSeconds / CheckInterval

  // ---------------------------------------------------------------------------
  // Arithmetic on round positions
  // ---------------------------------------------------------------------------

  lemma MulLe(a: nat, b: nat, n: nat)
    requires a <= b
    ensures a * n <= b * n
  {
    assert b * n == a * n + (b - a) * n;
  }

  /** Check number `q * n + r` is probe `r` of round `q`. */
  lemma DivMod(q: nat, n: nat, r: nat)
    requires r < n
    ensures (q * n + r) / n == q && (q * n + r) % n == r
  {
    var x := q * n + r;
    var q', r' := x / n, x % n;
    assert x == q' * n + r';
    if q' < q {
      assert (q' + 1) * n == q' * n + n;
      MulLe(q' + 1, q, n);
    } else if q < q' {
      assert (q + 1) * n == q * n + n;
      MulLe(q + 1, q', n);
    }
  }

  /** Moving to the next check crosses a round boundary exactly after a round's last probe. */
  lemma NextRound(c: nat, n: nat)
    requires n > 0
    ensures (c + 1) / n == c / n + (if c % n == n - 1 then 1 else 0)
  {
    var q, r := c / n, c % n;
    assert c == q * n + r;
    if r == n - 1 {
      assert c + 1 == (q + 1) * n + 0;
      DivMod(q + 1, n, 0);
    } else {
      assert c + 1 == q * n + (r + 1);
      DivMod(q, n, r + 1);
    }
  }

  /** How many rounds of `n` checks the first `c` checks close, counted check by check. */
  function ClosedRounds(c: nat, n: nat): nat
    requires n > 0
  {
    if c == 0 then 0 else ClosedRounds(c - 1, n) + (if (c - 1) % n == n - 1 then 1 else 0)
  }

  /** Counting closed rounds check by check agrees with integer division. */
  lemma {:induction false} ClosedRoundsDiv(c: nat, n: nat)
    requires n > 0
    ensures ClosedRounds(c, n) == c / n
  {
    if c > 0 {
      ClosedRoundsDiv(c - 1, n);
      NextRound(c - 1, n);
    }
  }

  // ---------------------------------------------------------------------------
  // The reference schedule
  // ---------------------------------------------------------------------------

  /** The position of the first positive answer among checks `k .. budget - 1`, or `budget` if none. */
  function FirstPositive(answers: nat -> bool, k: nat, budget: nat): (f: nat)
    requires k <= budget
    ensures k <= f <= budget
    ensures forall j :: k <= j < f ==> !answers(j)
    ensures f < budget ==> answers(f)
    decreases budget - k
  {
    if k == budget then budget
    else if answers(k) then k
    else FirstPositive(answers, k + 1, budget)
  }

  /** How many checks a poll with `budget` checks makes: up to and including the first positive one. */
  function ChecksMade(answers: nat -> bool, budget: nat): (c: nat)
    ensures c <= budget
    ensures forall j :: 0 <= j < c - 1 ==> !answers(j)
    ensures (exists k :: 0 <= k < budget && answers(k)) <==> c > 0 && answers(c - 1)
    ensures !(c > 0 && answers(c - 1)) ==> c == budget
  {
    var f := FirstPositive(answers, 0, budget);
    if f < budget then f + 1 else budget
  }

  /** What check number `k` contributes: its probe, then a pause if it closed a round unanswered. */
  function Step(probes: seq<Call>, answers: nat -> bool, k: nat): seq<Call>
    requires |probes| > 0
  {
    var n := |probes|;
    [probes[k % n]] + (if k % n == n - 1 && !answers(k) then [Sleep] else [])
  }

  /**
   * The calls of the first `c` checks, written check by check rather than
   * round by round: check `k` uses probe `k mod n`, and a pause follows a
   * negative answer to the last probe of a round.
   */
  function Schedule(probes: seq<Call>, answers: nat -> bool, c: nat): seq<Call>
    requires |probes| > 0
    decreases c
  {
    if c == 0 then [] else Schedule(probes, answers, c - 1) + Step(probes, answers, c - 1)
  }

  /** The result of a poll: whether someone confirmed, and the calls it made. */
  datatype Polled = Polled(confirmed: bool, trace: seq<Call>)

  /** The poll over `rounds` rounds, as the schedule of the checks it makes. */
  function Poll(probes: seq<Call>, answers: nat -> bool, rounds: nat): (p: Polled)
    requires |probes| > 0
    ensures p.confirmed <==> exists k :: 0 <= k < rounds * |probes| && answers(k)
  {
    var c := ChecksMade(answers, rounds * |probes|);
    Polled(c > 0 && answers(c - 1), Schedule(probes, answers, c))
  }

  // ---------------------------------------------------------------------------
  // The polling loop as the source writes it
  // ---------------------------------------------------------------------------

  /** Inside a round, before its last probe has been answered, no pause has been added. */
  lemma {:induction false} ScheduleWithinRound(probes: seq<Call>, answers: nat -> bool, i: nat, j: nat)
    requires 0 < |probes| && j < |probes|
    ensures Schedule(probes, answers, i * |probes| + j) == Schedule(probes, answers, i * |probes|) + probes[..j]
  {
    var n := |probes|;
    if j > 0 {
      ScheduleWithinRound(probes, answers, i, j - 1);
      DivMod(i, n, j - 1);
      assert probes[..j] == probes[..j - 1] + [probes[j - 1]];
    }
  }

  /** A positive answer to probe `j` of round `i` adds no pause after it. */
  lemma RoundAnswered(probes: seq<Call>, answers: nat -> bool, i: nat, j: nat)
    requires 0 < |probes| && j < |probes| && answers(i * |probes| + j)
    ensures Schedule(probes, answers, i * |probes| + j + 1) == Schedule(probes, answers, i * |probes|) + probes[..j + 1]
  {
    var n := |probes|;
    var x := i * n + j;
    assert x % n == j by {
      DivMod(i, n, j);
    }
    assert Schedule(probes, answers, x + 1) == Schedule(probes, answers, x) + [probes[j]];
    ScheduleWithinRound(probes, answers, i, j);
    assert probes[..j + 1] == probes[..j] + [probes[j]];
  }

  /** When check `x` is the first positive one within the budget, the poll makes `x + 1` checks. */
  lemma ChecksMadeAt(answers: nat -> bool, budget: nat, x: nat)
    requires x < budget && answers(x)
    requires forall k :: 0 <= k < x ==> !answers(k)
    ensures ChecksMade(answers, budget) == x + 1
  {
    var f := FirstPositive(answers, 0, budget);
    assert f == x;
  }

  /** A poll whose first positive answer is probe `j` of round `i` confirms after that check. */
  lemma PollConfirmedAt(probes: seq<Call>, answers: nat -> bool, rounds: nat, i: nat, j: nat)
    requires 0 < |probes| && i < rounds && j < |probes|
    requires forall k :: 0 <= k < i * |probes| + j ==> !answers(k)
    requires answers(i * |probes| + j)
    ensures Poll(probes, answers, rounds) == Polled(true, Schedule(probes, answers, i * |probes|) + probes[..j + 1])
  {
    var n := |probes|;
    var x := i * n + j;
    var budget := rounds * n;
    assert x < budget by {
      assert (i + 1) * n == i * n + n;
      MulLe(i + 1, rounds, n);
    }
    ChecksMadeAt(answers, budget, x);
    RoundAnswered(probes, answers, i, j);
  }

  /** A poll with no positive answer in its budget times out after every check. */
  lemma PollTimedOut(probes: seq<Call>, answers: nat -> bool, rounds: nat)
    requires 0 < |probes|
    requires forall k :: 0 <= k < rounds * |probes| ==> !answers(k)
    ensures Poll(probes, answers, rounds) == Polled(false, Schedule(probes, answers, rounds * |probes|))
  {
  }

  /** Closing an unanswered round adds its probes and one pause. */
  lemma RoundClosed(probes: seq<Call>, answers: nat -> bool, i: nat)
    requires 0 < |probes| && !answers(i * |probes| + |probes| - 1)
    ensures Schedule(probes, answers, (i + 1) * |probes|) == Schedule(probes, answers, i * |probes|) + probes + [Sleep]
  {
    var n := |probes|;
    var last := i * n + (n - 1);
    assert last % n == n - 1 by {
      DivMod(i, n, n - 1);
    }
    assert (i + 1) * n == last + 1;
    assert Schedule(probes, answers, last + 1) == Schedule(probes, answers, last) + [probes[n - 1], Sleep];
    ScheduleWithinRound(probes, answers, i, n - 1);
    assert probes[..n - 1] + [probes[n - 1]] == probes;
  }

  /**
   * The inner loop of the source: one round, checking the probes in order
   * and leaving at the first positive answer. `base` is the number of checks
   * made in earlier rounds.
   */
  method PollRound(probes: seq<Call>, answers: nat -> bool, base: nat) returns (answered: bool, j: nat, calls: seq<Call>)
    requires |probes| > 0
    ensures answered ==> j < |probes| && answers(base + j) && calls == probes[..j + 1]
    ensures !answered ==> calls == probes
    ensures forall k :: base <= k < base + (if answered then j else |probes|) ==> !answers(k)
  {
    var n := |probes|;
    answered := false;
    calls := [];
    j := 0;
    while j < n
      invariant 0 <= j <= n
      invariant forall k :: base <= k < base + j ==> !answers(k)
      invariant calls == probes[..j]
    {
      calls := calls + [probes[j]];
      if answers(base + j) {
        answered := true;
        return;
      }
      j := j + 1;
    }
    assert probes[..n] == probes;
  }

  /**
   * The nested loop of the source: at most `rounds` rounds; each round checks
   * the probes in order and leaves both loops at the first positive answer;
   * an unanswered round is followed by a pause. It makes exactly the calls
   * of the check-by-check schedule.
   */
  method PollLoop(probes: seq<Call>, answers: nat -> bool, rounds: nat) returns (confirmed: bool, trace: seq<Call>)
    requires |probes| > 0
    ensures Polled(confirmed, trace) == Poll(probes, answers, rounds)
  {
    var n := |probes|;
    confirmed := false;
    trace := [];
    var i := 0;
    var base := 0;  // checks made in the completed rounds
    while i < rounds
      invariant 0 <= i <= rounds && base == i * n
      invariant !confirmed
      invariant forall k :: 0 <= k < base ==> !answers(k)
      invariant trace == Schedule(probes, answers, base)
    {
      var answered, j, calls := PollRound(probes, answers, base);
      trace := trace + calls;
      if answered {
        confirmed := true;
        PollConfirmedAt(probes, answers, rounds, i, j);
        return;
      }
      RoundClosed(probes, answers, i);
      trace := trace + [Sleep];
      assert (i + 1) * n == base + n;
      i := i + 1;
      base := base + n;
    }
    PollTimedOut(probes, answers, rounds);
  }

  // ---------------------------------------------------------------------------
  // What the schedule promises
  // ---------------------------------------------------------------------------

  /** One check contributes exactly its probe to the checks. */
  lemma StepChecks(probes: seq<Call>, answers: nat -> bool, k: nat)
    requires 0 < |probes| && IsCheck(probes[k % |probes|])
    ensures Checks(Step(probes, answers, k)) == [probes[k % |probes|]]
  {
    var x := probes[k % |probes|];
    var step := Step(probes, answers, k);
    ChecksConcat([x], step[1..]);
    assert step == [x] + step[1..];
    assert Checks([x]) == [x] by {
      assert [x][..0] == [];
    }
    assert Checks(step[1..]) == [] by {
      if step[1..] != [] {
        assert step[1..] == [Sleep];
        assert step[1..][..0] == [];
      }
    }
  }

  /** One more check adds its probe to the checks of the schedule. */
  lemma ScheduleChecksStep(probes: seq<Call>, answers: nat -> bool, c: nat)
    requires 0 < |probes| && forall k :: 0 <= k < |probes| ==> IsCheck(probes[k])
    requires 0 < c
    ensures Checks(Schedule(probes, answers, c))
      == Checks(Schedule(probes, answers, c - 1)) + [probes[(c - 1) % |probes|]]
  {
    var before, step := Schedule(probes, answers, c - 1), Step(probes, answers, c - 1);
    assert Schedule(probes, answers, c) == before + step;
    StepChecks(probes, answers, c - 1);
    ChecksConcat(before, step);
  }

  /** The probes of the first `c` checks: check `k` uses probe `k mod n`. */
  function Cycle(probes: seq<Call>, c: nat): (r: seq<Call>)
    requires 0 < |probes|
    decreases c
  {
    if c == 0 then [] else Cycle(probes, c - 1) + [probes[(c - 1) % |probes|]]
  }

  /** Check `k` of the cycle is probe `k mod n`. */
  lemma {:induction false} CycleAt(probes: seq<Call>, c: nat)
    requires 0 < |probes|
    ensures var t := Cycle(probes, c);
      |t| == c && forall k :: 0 <= k < c ==> t[k] == probes[k % |probes|]
    decreases c
  {
    if c > 0 {
      var n := |probes|;
      var s := Cycle(probes, c - 1);
      var t := Cycle(probes, c);
      CycleAt(probes, c - 1);
      forall k | 0 <= k < c
        ensures t[k] == probes[k % n]
      {
        if k < c - 1 {
          assert t[k] == s[k];
        }
      }
    }
  }

  /** The schedule of `c` checks issues exactly `c` checks, cycling through the probes in list order. */
  lemma {:induction false} ScheduleChecks(probes: seq<Call>, answers: nat -> bool, c: nat)
    requires 0 < |probes| && forall k :: 0 <= k < |probes| ==> IsCheck(probes[k])
    ensures Checks(Schedule(probes, answers, c)) == Cycle(probes, c)
    decreases c
  {
    if c > 0 {
      ScheduleChecks(probes, answers, c - 1);
      ScheduleChecksStep(probes, answers, c);
    }
  }

  /** Every call of the schedule is a pause or one of the probes. */
  lemma {:induction false} ScheduleCalls(probes: seq<Call>, answers: nat -> bool, c: nat)
    requires 0 < |probes|
    ensures forall x :: x in Schedule(probes, answers, c) ==> x == Sleep || x in probes
    decreases c
  {
    if c > 0 {
      ScheduleCalls(probes, answers, c - 1);
    }
  }

  /** One check contributes a pause exactly when it closes a round unanswered. */
  lemma StepSleeps(probes: seq<Call>, answers: nat -> bool, k: nat)
    requires 0 < |probes| && IsCheck(probes[k % |probes|])
    ensures Sleeps(Step(probes, answers, k)) == (if k % |probes| == |probes| - 1 && !answers(k) then 1 else 0)
  {
    var x := probes[k % |probes|];
    var step := Step(probes, answers, k);
    SleepsConcat([x], step[1..]);
    assert step == [x] + step[1..];
    assert Sleeps([x]) == 0 by {
      assert [x][..0] == [];
    }
    if step[1..] != [] {
      assert step[1..][..0] == [];
    }
  }

  /** The pauses of one more check. */
  lemma ScheduleSleepsStep(probes: seq<Call>, answers: nat -> bool, c: nat)
    requires 0 < |probes| && forall k :: 0 <= k < |probes| ==> IsCheck(probes[k])
    requires 0 < c
    ensures Sleeps(Schedule(probes, answers, c))
      == Sleeps(Schedule(probes, answers, c - 1)) + (if (c - 1) % |probes| == |probes| - 1 && !answers(c - 1) then 1 else 0)
  {
    var before, step := Schedule(probes, answers, c - 1), Step(probes, answers, c - 1);
    assert Schedule(probes, answers, c) == before + step;
    StepSleeps(probes, answers, c - 1);
    SleepsConcat(before, step);
  }

  /** While every answer is negative, one pause follows each completed round. */
  lemma {:induction false} ScheduleSleeps(probes: seq<Call>, answers: nat -> bool, c: nat)
    requires 0 < |probes| && forall k :: 0 <= k < |probes| ==> IsCheck(probes[k])
    requires forall k :: 0 <= k < c ==> !answers(k)
    ensures Sleeps(Schedule(probes, answers, c)) == ClosedRounds(c, |probes|)
    decreases c
  {
    if c > 0 {
      ScheduleSleeps(probes, answers, c - 1);
      ScheduleSleepsStep(probes, answers, c);
      assert !answers(c - 1);
    }
  }

  /** A schedule ending at the first positive answer ends with that check, after one pause per completed round. */
  lemma ScheduleConfirmed(probes: seq<Call>, answers: nat -> bool, c: nat)
    requires 0 < |probes| && forall k :: 0 <= k < |probes| ==> IsCheck(probes[k])
    requires 0 < c && answers(c - 1) && forall k :: 0 <= k < c - 1 ==> !answers(k)
    ensures Sleeps(Schedule(probes, answers, c)) == (c - 1) / |probes|
    ensures Schedule(probes, answers, c) != [] && IsCheck(Schedule(probes, answers, c)[|Schedule(probes, answers, c)| - 1])
  {
    var n := |probes|;
    ScheduleSleeps(probes, answers, c - 1);
    ClosedRoundsDiv(c - 1, n);
    var step := Step(probes, answers, c - 1);
    assert step == [probes[(c - 1) % n]];
    SleepsConcat(Schedule(probes, answers, c - 1), step);
    assert Sleeps(step) == 0 by {
      assert step[..0] == [];
    }
  }

  /** A schedule of `rounds` full unanswered rounds has one pause per round and ends with one. */
  lemma ScheduleTimedOut(probes: seq<Call>, answers: nat -> bool, rounds: nat)
    requires 0 < |probes| && forall k :: 0 <= k < |probes| ==> IsCheck(probes[k])
    requires forall k :: 0 <= k < rounds * |probes| ==> !answers(k)
    ensures Sleeps(Schedule(probes, answers, rounds * |probes|)) == rounds
    ensures rounds > 0 ==>
      && Schedule(probes, answers, rounds * |probes|) != []
      && Schedule(probes, answers, rounds * |probes|)[|Schedule(probes, answers, rounds * |probes|)| - 1] == Sleep
  {
    var n := |probes|;
    ScheduleSleeps(probes, answers, rounds * n);
    ClosedRoundsDiv(rounds * n, n);
    DivMod(rounds, n, 0);
    if rounds > 0 {
      var c := rounds * n;
      assert c - 1 == (rounds - 1) * n + (n - 1);
      DivMod(rounds - 1, n, n - 1);
      assert Schedule(probes, answers, c) == Schedule(probes, answers, c - 1) + Step(probes, answers, c - 1);
    }
  }

  /**
   * What the poll issues: at most `rounds * n` checks, cycling through the
   * probes in order, all answered negatively but the last, which decides
   * the outcome; and nothing but probes and pauses.
   */
  lemma PollChecks(probes: seq<Call>, answers: nat -> bool, rounds: nat)
    requires 0 < |probes| && forall k :: 0 <= k < |probes| ==> IsCheck(probes[k])
    ensures var p := Poll(probes, answers, rounds);
      var n := |probes|;
      var checks := Checks(p.trace);
      var c := |checks|;
      && c <= rounds * n
      && (forall k :: 0 <= k < c ==> checks[k] == probes[k % n])
      && (forall k :: 0 <= k < c - 1 ==> !answers(k))
      && (p.confirmed <==> c > 0 && answers(c - 1))
      && (forall x :: x in p.trace ==> x == Sleep || x in probes)
  {
    var c := ChecksMade(answers, rounds * |probes|);
    ScheduleChecks(probes, answers, c);
    CycleAt(probes, c);
    ScheduleCalls(probes, answers, c);
  }

  /** A confirmed poll leaves one pause per completed round and ends on its confirming check. */
  lemma PollConfirmedEnding(probes: seq<Call>, answers: nat -> bool, rounds: nat)
    requires 0 < |probes| && forall k :: 0 <= k < |probes| ==> IsCheck(probes[k])
    requires Poll(probes, answers, rounds).confirmed
    ensures var p := Poll(probes, answers, rounds);
      var c := ChecksMade(answers, rounds * |probes|);
      Sleeps(p.trace) == (c - 1) / |probes| && p.trace != [] && IsCheck(p.trace[|p.trace| - 1])
  {
    ScheduleConfirmed(probes, answers, ChecksMade(answers, rounds * |probes|));
  }

  /** A poll that timed out made every check and paused after every round. */
  lemma PollTimedOutEnding(probes: seq<Call>, answers: nat -> bool, rounds: nat)
    requires 0 < |probes| && forall k :: 0 <= k < |probes| ==> IsCheck(probes[k])
    requires !Poll(probes, answers, rounds).confirmed
    ensures var p := Poll(probes, answers, rounds);
      && ChecksMade(answers, rounds * |probes|) == rounds * |probes|
      && Sleeps(p.trace) == rounds
      && (rounds > 0 ==> p.trace != [] && p.trace[|p.trace| - 1] == Sleep)
  {
    ScheduleTimedOut(probes, answers, rounds);
  }

  /**
   * The poll's promises. It makes at most `rounds * n` checks, cycling through
   * the probes in order; it stops at the first positive answer and confirms
   * exactly then. A confirmation during round `r + 1` leaves `r` pauses and
   * nothing after the confirming check; a time-out pauses after every one of
   * the `rounds` rounds. Nothing but probes and pauses is issued.
   */
  lemma PollFacts(probes: seq<Call>, answers: nat -> bool, rounds: nat)
    requires 0 < |probes| && forall k :: 0 <= k < |probes| ==> IsCheck(probes[k])
    ensures var p := Poll(probes, answers, rounds);
      var n := |probes|;
      var checks := Checks(p.trace);
      var c := |checks|;
      && c <= rounds * n
      && (forall k :: 0 <= k < c ==> checks[k] == probes[k % n])
      && (forall k :: 0 <= k < c - 1 ==> !answers(k))
      && (p.confirmed <==> c > 0 && answers(c - 1))
      && (p.confirmed ==> Sleeps(p.trace) == (c - 1) / n && p.trace != [] && IsCheck(p.trace[|p.trace| - 1]))
      && (!p.confirmed ==> c == rounds * n && Sleeps(p.trace) == rounds)
      && (!p.confirmed && rounds > 0 ==> p.trace != [] && p.trace[|p.trace| - 1] == Sleep)
      && (forall x :: x in p.trace ==> x == Sleep || x in probes)
  {
    var c := ChecksMade(answers, rounds * |probes|);
    PollChecks(probes, answers, rounds);
    if Poll(probes, answers, rounds).confirmed {
      PollConfirmedEnding(probes, answers, rounds);
    } else {
      PollTimedOutEnding(probes, answers, rounds);
    }
    ScheduleChecks(probes, answers, c);
    CycleAt(probes, c);
  }
}

=== FILE: trace.dfy ===
/**
 * What an escalation run does, as the ordered list of gateway calls it makes,
 * plus how it ended. Both escalation flows are described in these terms.
 */
module Trace {
  import opened Common
  import Feishu

  /** The start of the confirmation window, `time.time()` read once per run; its value is opaque. */
  type Timestamp = int

  /** One call from an escalation flow to the notifier, or one pause between polling rounds. */
  datatype Call =
    | SendToAll(tier: Tier, title: string, content: string, imagePath: Option<string>)
    | ResolveChat(user: Id)
    | CheckUser(chat: Id, since: Timestamp)
    | CheckChat(since: Timestamp)
    | Sleep
    | SendGroupCard(title: string, content: string, picture: string)
    | Buzz(buzz: Feishu.BuzzCall)

  /** How a run ended: given up before polling, acknowledged, or out of time. */
  datatype Outcome = Aborted | Confirmed | TimedOut

  datatype Run = Run(trace: seq<Call>, outcome: Outcome)

  /** A reply check: a query whether someone answered since the window opened. */
  predicate IsCheck(c: Call)
  {
    c.CheckUser? || c.CheckChat?
  }

  /** The reply checks of a trace, in order. */
  function Checks(t: seq<Call>): (r: seq<Call>)
    ensures |r| <= |t|
    decreases |t|
  {
    if t == [] then []
    else Checks(t[..|t| - 1]) + (if IsCheck(t[|t| - 1]) then [t[|t| - 1]] else [])
  }

  /** The number of pauses in a trace. */
  function Sleeps(t: seq<Call>): (n: nat)
    ensures n <= |t|
    decreases |t|
  {
    if t == [] then 0
    else Sleeps(t[..|t| - 1]) + (if t[|t| - 1] == Sleep then 1 else 0)
  }

  /** Filtering the checks of a concatenation filters each part. */
  lemma {:induction false} ChecksConcat(a: seq<Call>, b: seq<Call>)
    ensures Checks(a + b) == Checks(a) + Checks(b)
    decreases |b|
  {
    if b == [] {
      assert a + b == a;
    } else {
      var b' := b[..|b| - 1];
      assert (a + b)[..|a + b| - 1] == a + b';
      ChecksConcat(a, b');
    }
  }

  /** Counting the pauses of a concatenation counts each part. */
  lemma {:induction false} SleepsConcat(a: seq<Call>, b: seq<Call>)
    ensures Sleeps(a + b) == Sleeps(a) + Sleeps(b)
    decreases |b|
  {
    if b == [] {
      assert a + b == a;
    } else {
      var b' := b[..|b| - 1];
      assert (a + b)[..|a + b| - 1] == a + b';
      SleepsConcat(a, b');
    }
  }

  /** The tiers of the buzzes in a trace, in order. */
  function BuzzTiers(t: seq<Call>): (r: seq<Tier>)
    ensures |r| <= |t|
    decreases |t|
  {
    if t == [] then []
    else BuzzTiers(t[..|t| - 1]) + (if t[|t| - 1].Buzz? then [t[|t| - 1].buzz.tier] else [])
  }

  /** Counting buzz tiers distributes over concatenation. */
  lemma {:induction false} BuzzTiersConcat(a: seq<Call>, b: seq<Call>)
    ensures BuzzTiers(a + b) == BuzzTiers(a) + BuzzTiers(b)
    decreases |b|
  {
    if b == [] {
      assert a + b == a;
    } else {
      var b' := b[..|b| - 1];
      assert (a + b)[..|a + b| - 1] == a + b';
      BuzzTiersConcat(a, b');
    }
  }

  /** Stretches without buzzes between and before two others leave just the tiers of those two. */
  lemma BuzzTiersBetween(a: seq<Call>, b: seq<Call>, c: seq<Call>, d: seq<Call>)
    requires BuzzTiers(a) == [] && BuzzTiers(c) == []
    ensures BuzzTiers(a + b + c + d) == BuzzTiers(b) + BuzzTiers(d)
  {
    var tb, td := BuzzTiers(b), BuzzTiers(d);
    assert BuzzTiers(a + b) == tb by {
      BuzzTiersConcat(a, b);
      assert [] + tb == tb;
    }
    assert BuzzTiers(a + b + c) == tb by {
      BuzzTiersConcat(a + b, c);
      assert tb + [] == tb;
    }
    BuzzTiersConcat(a + b + c, d);
  }

  /** A trace of at most one call buzzes with that call's tier, if it is a buzz. */
  lemma BuzzTiersSingle(t: seq<Call>)
    requires |t| <= 1
    ensures BuzzTiers(t) == if t != [] && t[0].Buzz? then [t[0].buzz.tier] else []
  {
    if t != [] {
      assert t[..0] == [];
    }
  }

  /** A trace without buzzes has no buzz tiers. */
  lemma {:induction false} BuzzTiersNone(t: seq<Call>)
    requires forall k :: 0 <= k < |t| ==> !t[k].Buzz?
    ensures BuzzTiers(t) == []
    decreases |t|
  {
    if t != [] {
      BuzzTiersNone(t[..|t| - 1]);
    }
  }

  /** A stretch of calls that are neither reply checks nor pauses. */
  predicate Quiet(t: seq<Call>)
  {
    forall k :: 0 <= k < |t| ==> !IsCheck(t[k]) && t[k] != Sleep
  }

  /** Two quiet stretches make a quiet stretch. */
  lemma QuietConcat(a: seq<Call>, b: seq<Call>)
    requires Quiet(a) && Quiet(b)
    ensures Quiet(a + b)
  {
    forall k | 0 <= k < |a + b|
      ensures !IsCheck((a + b)[k]) && (a + b)[k] != Sleep
    {
      if k >= |a| {
        assert (a + b)[k] == b[k - |a|];
      }
    }
  }

  /** A trace without checks or pauses contributes neither. */
  lemma {:induction false} ChecksNone(t: seq<Call>)
    requires Quiet(t)
    ensures Checks(t) == [] && Sleeps(t) == 0
    decreases |t|
  {
    if t != [] {
      ChecksNone(t[..|t| - 1]);
    }
  }

  /** Calls that are neither checks nor pauses around a stretch leave its checks and pauses as they are. */
  lemma ChecksFramed(head: seq<Call>, mid: seq<Call>, tail: seq<Call>)
    requires Quiet(head) && Quiet(tail)
    ensures Checks(head + mid + tail) == Checks(mid)
    ensures Sleeps(head + mid + tail) == Sleeps(mid)
  {
    ChecksNone(head);
    ChecksNone(tail);
    ChecksConcat(head, mid);
    ChecksConcat(head + mid, tail);
    SleepsConcat(head, mid);
    SleepsConcat(head + mid, tail);
    assert Checks(head) + Checks(mid) == Checks(mid);
  }
}
